=== FILE: README.md ===
# Game ad ROI dashboard and tarot reading flow — a Dafny model

This project models the computational core of a single-page React
application with two parts.

The ad-analytics dashboard:

- `generateROIPredictions` projects 180 days of revenue for one cohort of
  users bought with the daily budget. The cohort decays along a piecewise
  retention curve and each active user earns ARPU less a 30% platform fee.
  Each day stores the cent-rounded revenue, the tenth-rounded ROI and a
  breakeven flag.
- The configuration panel cleans what the user edits or imports:
  - `sanitizeNumber` and `roundTo` are the number helpers;
  - `normalizeChannel` recomputes CPI and ROAS from their source fields;
  - `deriveKPIFromChannels` rebuilds the portfolio KPIs from the channel
    list;
  - retention rows are cleaned and sorted by day on save and on import;
  - channel rows are added, edited and removed, and single retention rows
    are edited.
- The dashboard derives the first breakeven day, the breakeven figure
  shown on the KPI card and the ROI predicted for day 180.

The tarot reading page is a small state machine over four pieces of
state: phase, drawn cards, revealed count and selected card. Its handlers
start a draw, reveal a card, reset the page and select a card.

Numbers are exact `real`s. A JavaScript number that may be NaN or ±Infinity
is `Numbers.Num`. `Math.round` is `Floor(x + 1/2)`. `roundTo(v, d)` is
`Math.round(v·10^d) / 10^d` for the precisions the code uses: 0, 1 and 2
decimals.

Modules, one per file:

| file | module | models |
|---|---|---|
| `maybe.dfy` | `Maybe` | `T \| null` |
| `numbers.dfy` | `Numbers` | `sanitizeNumber`, `Math.round`, `roundTo`, `Math.pow` |
| `roi_projection.dfy` | `RoiProjection` | `generateROIPredictions` |
| `channels.dfy` | `Channels` | `normalizeChannel`, channel list edits |
| `kpi.dfy` | `Kpi` | `deriveKPIFromChannels` |
| `retention.dfy` | `Retention` | retention row clean-up, stable sort by day, `updateRetention` |
| `data_config.dfy` | `DataConfig` | `handleSave`, post-parse part of `handleImportFile` |
| `dashboard.dfy` | `Dashboard` | `breakevenDay`, `displayBreakevenDay`, `predictedRoi` |
| `reading.dfy` | `Reading` | `ReadingPage` phases and handlers |

The breakeven flag of a projected day is taken from the unrounded ROI
(`roi >= 100` before rounding), not from the stored, rounded one. So a day can store an ROI of 100.0 and still not be
breakeven, as `RoiProjection.RoundedRoiCanReadHundredBeforeBreakeven`
exhibits.

## Model

| member | source | states |
|---|---|---|
| Numbers.Sanitize | src/components/DataConfigPanel.tsx:29-32 | the result is never below `min`; non-finite input gives `min`; finite input below `min` gives `min`; any other input is returned unchanged |
| Numbers.SanitizeIdempotent | src/components/DataConfigPanel.tsx:29-32 | sanitising an already sanitised value returns it unchanged |
| Numbers.Round | src/components/DataConfigPanel.tsx:36 | `Math.round(x)` is the one integer in the window (x − 1/2, x + 1/2] |
| Numbers.RoundIsFloor | src/components/DataConfigPanel.tsx:36 | `Math.round(x)` equals `Math.floor(x + 0.5)` |
| Numbers.RoundMonotone | src/components/DataConfigPanel.tsx:36 | rounding preserves order |
| Numbers.RoundTo | src/components/DataConfigPanel.tsx:34-37 | `roundTo(x, d)` is within half a step 0.5·10^-d of x |
| Numbers.RoundToOnGridPoint | src/components/DataConfigPanel.tsx:34-37 | `roundTo(x, d)` always lands on the 10^-d grid |
| Numbers.RoundToOnGrid | src/components/DataConfigPanel.tsx:34-37 | a value already on the 10^-d grid is returned unchanged |
| Numbers.RoundToIdempotent | src/components/DataConfigPanel.tsx:34-37 | rounding twice to the same precision is rounding once |
| Numbers.RoundToMonotone | src/components/DataConfigPanel.tsx:34-37 | `roundTo` preserves order |
| Numbers.RoundToNonNegative | src/components/DataConfigPanel.tsx:34-37 | rounding a non-negative value gives a non-negative value |
| Numbers.RoundToZeroIsWhole | src/components/DataConfigPanel.tsx:53 | rounding to 0 decimals yields a whole number |
| Numbers.Pow | src/data/mockData.ts:110-112 | `Math.pow(b, n)` with 0 ≤ b ≤ 1 lies in [0, 1] |
| Numbers.PowAntitone | src/data/mockData.ts:110-112 | powers of a decay factor in [0, 1] never grow with the exponent |
| RoiProjection.RetentionRate | src/data/mockData.ts:108-112 | each regime of the piecewise curve (day 1, days 2–7, 8–30, 31+) stays at or below its own anchor percentage; genuine percentage anchors give a share in [0, 1]; non-negative inputs give a non-negative share |
| RoiProjection.Decayed | src/data/mockData.ts:110-112 | an anchor decayed by a factor in [0, 1] stays between 0 and the anchor |
| RoiProjection.CohortSize | src/data/mockData.ts:104 | the cohort `dailyBudget / cpi` is non-negative for a non-negative budget |
| RoiProjection.DailyRevenue | src/data/mockData.ts:115-117 | the net revenue of a day is non-negative under non-negative inputs |
| RoiProjection.Accumulate | src/data/mockData.ts:102-118 | under non-negative inputs the running total is non-negative and never drops from one day to the next |
| RoiProjection.CumulativeRevenue | src/data/mockData.ts:102-118 | the accumulated revenue starts at 0 before day 1 and is never negative under non-negative inputs |
| RoiProjection.RawRoi | src/data/mockData.ts:122-123 | the unrounded ROI is 0 when the budget is not positive, and never negative under non-negative inputs |
| RoiProjection.Prediction | src/data/mockData.ts:121-131 | day d's record carries day d and the budget as cost; it is breakeven exactly when the budget is positive and the unrounded revenue has reached it |
| RoiProjection.BreakevenThreshold | src/data/mockData.ts:123-130 | with a positive cost, `roi >= 100` holds exactly when revenue ≥ cost |
| RoiProjection.Projection | src/data/mockData.ts:100-135 | the projection has 180 entries and entry i is the record of day i + 1 |
| RoiProjection.GenerateROIPredictions | src/data/mockData.ts:100-135 | the loop yields 180 records numbered 1..180, each costing the budget, storing the accumulated revenue to the cent and the ROI to a tenth; the result equals the reference `Projection` |
| RoiProjection.CumulativeRevenueMonotone | src/data/mockData.ts:118 | under non-negative inputs the accumulated revenue of a day is at most that of any later day |
| RoiProjection.RevenueNonDecreasing | src/data/mockData.ts:118-127 | the stored cent-rounded revenue never decreases from a day to a later one |
| RoiProjection.RawRoiMonotone | src/data/mockData.ts:123 | the unrounded ROI never decreases from a day to a later one |
| RoiProjection.RoiNonDecreasing | src/data/mockData.ts:123-129 | the stored tenth-rounded ROI never decreases from a day to a later one |
| RoiProjection.BreakevenPersists | src/data/mockData.ts:123-130 | once a day is breakeven, every later day is breakeven |
| RoiProjection.DefaultDayOne | src/data/mockData.ts:84-131 | with the default parameters day 1 stores revenue 245, cost 10000, ROI 2.5 and is not breakeven |
| RoiProjection.RoundedRoiCanReadHundredBeforeBreakeven | src/data/mockData.ts:123-130 | a day can store ROI 100.0 without being breakeven, because the flag uses the unrounded ROI |
| Channels.Normalize | src/components/DataConfigPanel.tsx:39-55 | the result is consistent, i.e. all numbers are finite and non-negative, the breakeven days are whole, CPI is spend/installs to the cent when there are installs, and ROAS is LTV30/CPI·100 to a tenth when CPI > 0; id, name and colour are kept; spend, installs and LTV30 are the sanitised inputs; the supplied CPI or ROAS is kept only when there is nothing to derive it from; breakeven days are within half a day of the sanitised input |
| Channels.NormalizeFixedPoints | src/components/DataConfigPanel.tsx:39-55 | normalising returns a record unchanged exactly when the record is consistent |
| Channels.NormalizeIdempotent | src/components/DataConfigPanel.tsx:39-55 | normalising twice is normalising once |
| Channels.NextColor | src/components/DataConfigPanel.tsx:118-121 | a new channel's colour is one of the seven palette colours |
| Channels.NextColorCycles | src/components/DataConfigPanel.tsx:21 | colours repeat every seven channels, and the first seven channels get distinct colours |
| Channels.NewChannel | src/components/DataConfigPanel.tsx:203-213 | the default record keeps the given id and colour and is already consistent, so normalising it changes nothing |
| Channels.AddChannel | src/components/DataConfigPanel.tsx:202-215 | the list grows by one record at the end, the earlier entries are untouched, and the new record gets the next colour, CPI 2 and ROAS 150 |
| Channels.RemoveChannel | src/components/DataConfigPanel.tsx:217-219 | removing position i deletes only entry i and keeps the others in order; a position outside the list removes nothing |
| Channels.ApplyEdit | src/components/DataConfigPanel.tsx:224 | the edited field takes the typed value, every other field keeps its value, and id and colour never change |
| Channels.UpdateChannel | src/components/DataConfigPanel.tsx:221-227 | entry i becomes the normalised edited record and every other entry is unchanged |
| Channels.CpiEditOverriddenByInstalls | src/components/DataConfigPanel.tsx:40-42 | typing a CPI into a consistent channel that has installs changes nothing, since CPI is recomputed |
| Channels.RoasEditOverriddenByCpi | src/components/DataConfigPanel.tsx:43-44 | typing a ROAS into a consistent channel with positive CPI changes nothing |
| Kpi.SumNonNegative | src/components/DataConfigPanel.tsx:60-61 | a sum of non-negative figures is non-negative |
| Kpi.TotalSpend | src/components/DataConfigPanel.tsx:60 | the spend total over the sanitised spends is never negative and is 0 without channels |
| Kpi.TotalInstalls | src/components/DataConfigPanel.tsx:61 | the install total over the sanitised installs is never negative and is 0 without channels |
| Kpi.TotalRevenue | src/components/DataConfigPanel.tsx:62-65 | the imputed revenue Σ spend·roas/100 is never negative and is 0 without channels |
| Kpi.WeightedBreakeven | src/components/DataConfigPanel.tsx:70-72 | with a positive spend total, the unrounded predicted breakeven lies between the smallest and the largest sanitised channel breakeven days |
| Kpi.WeightedLtv | src/components/DataConfigPanel.tsx:74-80 | with a positive install total, the unrounded current LTV lies between the smallest and the largest sanitised channel LTV30 |
| Kpi.AverageCpi | src/components/DataConfigPanel.tsx:67-87 | with installs, the average CPI is within half a cent of spend/installs; without installs it is the rounded fallback CPI; either way it is a whole number of cents |
| Kpi.OverallRoas | src/components/DataConfigPanel.tsx:68-88 | with spend, the overall ROAS is within 0.05 of revenue/spend·100; without spend it is the rounded fallback ROAS; either way it is a whole number of tenths |
| Kpi.PredictedBreakeven | src/components/DataConfigPanel.tsx:70-89 | with spend, the predicted breakeven is within half a day of the spend-weighted breakeven; without spend it is the rounded fallback; either way it is a whole number of days |
| Kpi.CurrentLtv | src/components/DataConfigPanel.tsx:76-90 | with installs, the current LTV is within half a cent of the install-weighted LTV30; without installs it is the rounded fallback LTV; either way it is a whole number of cents |
| Kpi.DeriveKPI | src/components/DataConfigPanel.tsx:57-92 | an empty list returns the fallback exactly; otherwise each total is a non-negative whole number within half a unit of the unrounded sum; with a positive denominator, average CPI is within 0.005 of spend/installs, overall ROAS within 0.05 of revenue/spend·100, predicted breakeven within half a day of the spend-weighted breakeven and current LTV within 0.005 of the install-weighted LTV30; every average lies on its rounding grid (cents, tenths, whole days, cents), so window and grid together make each field exactly its `roundTo` of the formula; an average whose denominator is zero is the fallback figure passed through the same rounding |
| Kpi.DotIsSumOfProducts | src/components/DataConfigPanel.tsx:72 | the weighted `reduce` equals the sum of the per-channel products |
| Kpi.SumScale | src/components/DataConfigPanel.tsx:62-65 | scaling every term scales the sum |
| Kpi.WeightedMeanBounds | src/components/DataConfigPanel.tsx:70-80 | a weighted mean with non-negative weights and positive total weight lies between the smallest and the largest value |
| Kpi.PredictedBreakevenWithinChannels | src/components/DataConfigPanel.tsx:70-89 | for sane channels, the rounded predicted breakeven lies between the smallest and largest channel breakeven days |
| Kpi.RevenueIsRoasDot | src/components/DataConfigPanel.tsx:62-65 | 100 × total revenue is the spend-weighted sum of ROAS |
| Kpi.OverallRoasWithinChannels | src/components/DataConfigPanel.tsx:62-68 | overall ROAS before rounding lies between the smallest and largest channel ROAS |
| Kpi.DeriveKPIStable | src/components/DataConfigPanel.tsx:57-92 | deriving again with the derived KPIs as fallback gives the same KPIs |
| Kpi.TotalsOfAppend | src/components/DataConfigPanel.tsx:60-61 | appending a channel adds its sanitised spend and installs to the totals |
| Kpi.AddChannelTotals | src/components/DataConfigPanel.tsx:202-215 | adding a channel raises the spend total by 10000 and the install total by 5000 |
| Kpi.SingleChannelPortfolio | src/components/DataConfigPanel.tsx:57-92 | a single consistent channel's KPIs reproduce its own CPI and breakeven days |
| Kpi.SingleChannelExample | src/components/DataConfigPanel.tsx:57-92 | spend 1000, 500 installs and ROAS 150 give total revenue 1500 and average CPI 2 |
| Retention.OnDay | src/components/DataConfigPanel.tsx:127 | the rows on one day, in list order, are rows of the list carrying that day |
| Retention.Insert | src/components/DataConfigPanel.tsx:127 | inserting one row into rows with finite days yields one more row, all with finite days |
| Retention.InsertPermutation | src/components/DataConfigPanel.tsx:127 | the insertion step adds exactly the inserted row to the rows, with multiplicity |
| Retention.InsertSorted | src/components/DataConfigPanel.tsx:127 | inserting into day-ordered rows keeps them in day order |
| Retention.InsertOnDay | src/components/DataConfigPanel.tsx:127 | the inserted row goes after every row already on its day, and rows on other days are untouched |
| Retention.SortByDay | src/components/DataConfigPanel.tsx:127 | `sort((a, b) => a.day - b.day)`, used on save and again on import (line 189), returns as many rows as it is given, all with finite days |
| Retention.SortSorted | src/components/DataConfigPanel.tsx:127 | the sort's result is in ascending day order |
| Retention.SortPermutation | src/components/DataConfigPanel.tsx:127 | the sort's result holds exactly the input rows, with multiplicity |
| Retention.SortStable | src/components/DataConfigPanel.tsx:127 | rows sharing a day keep their relative order, as in the stable `Array.prototype.sort` |
| Retention.SortKeepsSorted | src/components/DataConfigPanel.tsx:127 | rows already in day order are left exactly as they are |
| Retention.CleanedRate | src/components/DataConfigPanel.tsx:126 | a cleaned rate is finite, non-negative and on the tenths grid, within 0.05 of a non-negative input; a clean rate is kept |
| Retention.CleanedDay | src/components/DataConfigPanel.tsx:186 | a cleaned imported day is a finite, non-negative whole number within half a day of a non-negative input; a clean day is kept |
| Retention.CleanRates | src/components/DataConfigPanel.tsx:125-126 | every row keeps its day and gets a clean rate; rows whose rates are already clean are returned unchanged |
| Retention.CleanRows | src/components/DataConfigPanel.tsx:184-188 | every row gets a clean whole day and a clean rate; rows that are already clean are returned unchanged |
| Retention.SaveRetention | src/components/DataConfigPanel.tsx:124-127 | the saved rows are in day order with clean rates and are a rearrangement of the rate-cleaned rows |
| Retention.ImportRetention | src/components/DataConfigPanel.tsx:183-189 | for any list of rows, the imported rows are in day order with clean whole days and clean rates, and are a rearrangement of the cleaned rows |
| Retention.SaveStable | src/components/DataConfigPanel.tsx:124-127 | saving keeps the order of rows that share a day |
| Retention.ImportStable | src/components/DataConfigPanel.tsx:183-189 | importing keeps the order of rows that share a day |
| Retention.SaveRetentionIdempotent | src/components/DataConfigPanel.tsx:124-127 | saving saved rows changes nothing |
| Retention.ImportRetentionIdempotent | src/components/DataConfigPanel.tsx:183-189 | importing imported rows changes nothing |
| Retention.UpdateRetention | src/components/DataConfigPanel.tsx:229-235 | row i keeps its day and gets a clean rate, within 0.05 of a non-negative input; a non-finite or non-positive input gives 0; a clean input is stored as is; the other rows are unchanged |
| DataConfig.NormalizeAll | src/components/DataConfigPanel.tsx:124 | every channel comes out consistent with its id kept, and a list of consistent channels is returned unchanged, so normalising twice is normalising once; the import maps channels the same way (line 182) |
| DataConfig.SaveConfig | src/components/DataConfigPanel.tsx:123-134 | the committed channels are exactly the normalised local channels, hence consistent and as many as before; the KPIs are derived from the committed channels with the local KPIs as fallback; the retention rows are exactly the saved local rows (`SaveRetention`: rates cleaned, then sorted by day), hence day-ordered with clean rates and a rearrangement of the rate-cleaned local rows |
| DataConfig.SaveConfigIdempotent | src/components/DataConfigPanel.tsx:123-134 | saving a saved configuration commits the same configuration again |
| DataConfig.ImportConfig | src/components/DataConfigPanel.tsx:175-196 | an import fails exactly when a field is missing or a channel or retention row is `null`; otherwise the KPIs are kept verbatim, the channels are normalised, and the retention rows are exactly the imported rows (`ImportRetention`), hence committed-clean and a rearrangement of the cleaned rows |
| DataConfig.ImportThenSave | src/components/DataConfigPanel.tsx:123-192 | saving right after an import commits the imported channels and retention rows unchanged |
| Dashboard.FirstBreakevenIndex | src/pages/Dashboard.tsx:98-101 | `find` returns no position exactly when no entry is breakeven; otherwise it returns a breakeven entry with no breakeven entry before it |
| Dashboard.BreakevenDay | src/pages/Dashboard.tsx:98-101 | null exactly when no entry is breakeven; otherwise it is the day of a breakeven entry with none before it |
| Dashboard.DisplayBreakevenDay | src/pages/Dashboard.tsx:103 | with no breakeven entry the card shows the KPI prediction, otherwise exactly the breakeven day `find` returns, i.e. that of the first breakeven entry |
| Dashboard.PredictedRoi | src/pages/Dashboard.tsx:104 | null exactly for an empty projection, otherwise the last entry's ROI |
| Dashboard.BreakevenDayIsFirst | src/pages/Dashboard.tsx:98-101 | the breakeven day of the projection is within 1..180, its revenue covers a positive budget, and no earlier day is breakeven |
| Dashboard.BreakevenDayOnwards | src/pages/Dashboard.tsx:98-101 | under non-negative inputs every day from the breakeven day on is breakeven |
| Dashboard.BreakevenDayExists | src/pages/Dashboard.tsx:98-101 | under non-negative inputs there is a breakeven day exactly when the 180-day revenue covers a positive budget |
| Dashboard.PredictedRoiOfProjection | src/pages/Dashboard.tsx:104 | the predicted ROI of the projection is never null: it is day 180's rounded ROI |
| Dashboard.PredictedRoiIsPeak | src/pages/Dashboard.tsx:104 | under non-negative inputs no day stores a larger ROI than the predicted one |
| Reading.Dealt | src/data/tarotCards.ts:509-515 | the deal has exactly `cardCount` cards for a spread of up to 34 cards, the whole 34-card deck for a larger one, and never more than the deck |
| Reading.HandleStartDrawing | src/pages/ReadingPage.tsx:32-41 | drawn card i keeps the dealt card and its orientation and is placed in spread slot i; the phase becomes drawing; count and selection are untouched |
| Reading.HandleRevealCard | src/pages/ReadingPage.tsx:43-50 | the count grows by one only while it is below `cardCount`; the completion is scheduled exactly on the reveal that brings the count to `cardCount`; phase, cards and selection are untouched |
| Reading.HandleTimerFired | src/pages/ReadingPage.tsx:47 | a pending completion moves the page to complete and is consumed; without one nothing changes |
| Reading.HandleResetAsWritten | src/pages/ReadingPage.tsx:52-57 | the phase is intro, with no cards, count 0 and no selection, but a pending completion survives |
| Reading.HandleReset | src/pages/ReadingPage.tsx:52-57 | from any state, reset yields exactly the mount state: intro, no cards, count 0, no selection, no pending completion |
| Reading.HandleCardClick | src/pages/ReadingPage.tsx:59-63 | outside complete nothing changes; in complete, clicking the selected card clears the selection and clicking another selects it |
| Reading.CardClickToggles | src/pages/ReadingPage.tsx:59-63 | clicking the same card twice restores the state when nothing or that card was selected |
| Reading.Offered | src/pages/ReadingPage.tsx:73-112 | the buttons the page renders are such that an offered reveal always turns a card and an offered reset always changes the page |
| Reading.Step | src/pages/ReadingPage.tsx:32-63 | one transition with the corrected reset never enters the revealing phase |
| Reading.StepAsWritten | src/pages/ReadingPage.tsx:32-63 | one transition with the reset as written never enters the revealing phase |
| Reading.Run | src/pages/ReadingPage.tsx:32-63 | a sequence of offered events with the corrected reset never enters the revealing phase |
| Reading.RunAsWritten | src/pages/ReadingPage.tsx:32-63 | a sequence of offered events with the reset as written never enters the revealing phase |
| Reading.InitialInv | src/pages/ReadingPage.tsx:17-20 | the mount state satisfies the page invariant |
| Reading.StepInv | src/pages/ReadingPage.tsx:32-63 | every handler the page offers keeps the invariant |
| Reading.RunInv | src/pages/ReadingPage.tsx:32-63 | with the corrected reset, every state reached by offered events satisfies the invariant: count ≤ `cardCount`, never revealing, drawn cards are the deal outside the intro, complete only with every card face up |
| Reading.RevealingNeverEntered | src/pages/ReadingPage.tsx:13-63 | with the corrected reset, from the mount state no event sequence reaches `revealing` or a count above `cardCount` |
| Reading.RunAsWrittenBounded | src/pages/ReadingPage.tsx:32-63 | with the reset as written, offered events keep the page out of `revealing` with a count between 0 and `cardCount` |
| Reading.RevealingNeverEnteredAsWritten | src/pages/ReadingPage.tsx:13-63 | with the reset as written, from the mount state no event sequence reaches `revealing` or a count above `cardCount` |
| Reading.RevealAllThenComplete | src/pages/ReadingPage.tsx:43-50 | revealing the remaining cards and letting the timer fire completes the reading |
| Reading.ResetRaceAsWritten | src/pages/ReadingPage.tsx:43-57 | resetting within 800 ms of the last reveal ends in complete with no cards, breaking the invariant |
| Reading.ResetRaceCorrected | src/pages/ReadingPage.tsx:52-57 | with the timer cancelled, the same events leave the page at the mount state |

## Left out

- Rendering, charts, styling and navigation are left out. They are view code.
- localStorage persistence, the file picker, `Blob` export, `JSON.parse` and `Date` are I/O. The import is modelled from the parsed payload on. A payload field that is missing, falsy or, for the lists, not an array is `Null`.
- `handleResetDefaults`, `handleExportConfig` and `handleImportClick` are left out. They copy the static default tables or the local state and involve no computation.
- The static tables are left out: the default channels, the tarot deck, the spread layouts and the model metrics. The reading model takes a spread as a parameter and reduces a card to its id and name.
- `drawRandomCards` is randomness. The dealt cards are an input of the start event; only their number, `Reading.Dealt`, is fixed by the model.
- The 800 ms completion `setTimeout` is an explicit `TimerFired` event with a count of pending completions. The 250 ms simulator debounce and the card-flip delay are left out.
- `clampWithStep` is left out. It depends on decimal string parsing and `toFixed`.
- Floating point is left out. All arithmetic is on exact reals, including `Math.pow` of 0.85, 0.92 and 0.97 and the cent rounding of inexact values.
- Numbers.RoundTo: only the precisions 0, 1 and 2 are modelled, which are the only ones the code passes.
- RoiProjection.Prediction: requires `cpi > 0`. The division-by-zero path that yields Infinity or NaN is not modelled.
- RoiProjection.RevenueNonDecreasing, RoiProjection.RoiNonDecreasing, RoiProjection.BreakevenPersists: stated per pair of days on `Prediction(p, d)`. That is entry d − 1 of the projection, by `Projection`'s contract.
- Retention.SaveRetention, DataConfig.SaveConfig, DataConfig.SaveConfigIdempotent: require every day to be finite. A NaN comparator makes the JavaScript sort order implementation-defined. Rows reach the panel with whole days from the defaults or an import, and no edit changes a day.
- Channels.UpdateChannel, Retention.UpdateRetention: require an index inside the list. The panel only passes indices of rendered rows. An index outside the list would make JavaScript spread `undefined` into a new entry.
- DataConfig.ImportConfig: a `kpiMetrics` value that is truthy but not a KPI record is not modelled. The code keeps it as it is, like any KPI record. Likewise a channel or retention row that is neither `null` nor a record (a number, say) is not modelled; the code spreads it and reads `undefined` fields from it.
- Reading.StepInv, Reading.RunInv: only events the page offers are considered. The start button shows only in the intro, and its deal has `Reading.Dealt(cardCount)` cards; the reveal button only while drawing with cards face down; the reset button outside the intro; the cards while drawing or complete. The handlers themselves have no phase guard, except the card click.

## Findings

| source | as written | input that shows it | evidently intended | confidence | as-written member | corrected member |
|---|---|---|---|---|---|---|
| src/pages/ReadingPage.tsx:52-57 | `handleReset` clears phase, cards, count and selection but not the 800 ms `setTimeout(() => setPhase('complete'))` started on the last reveal (line 47) | a one-card spread: start, reveal the card, press reset within 800 ms; the timer then sets phase `complete` with no drawn cards and count 0 | reset returns to the intro and stays there until the user starts again, so `complete` is only ever shown with every card revealed | medium, not executed | Reading.ResetRaceAsWritten | Reading.HandleReset |

`Reading.HandleResetAsWritten` is the handler as written. The page model
`Reading.Step` uses `Reading.HandleReset`, which also cancels the pending
completion. `Reading.RunInv` proves that, with it, every reachable state
shows `complete` only with every card face up. As written, the weaker
`Reading.RunAsWrittenBounded` still holds: the page never enters
`revealing` and never shows more cards face up than the spread has.

=== FILE: channels.dfy ===
/**
 * Channel records of the configuration panel: `normalizeChannel`, which
 * sanitises every number and recomputes CPI and ROAS from their source
 * fields, and the list edits `addChannel`, `updateChannel` and
 * `removeChannel`.
 */
module Channels {
  import opened Numbers

  /** One acquisition channel, as edited in the panel or read from an import. */
  datatype Channel = Channel(
    channelId: string,
    channelName: string,
    spend: Num,
    installs: Num,
    cpi: Num,
    ltv30: Num,
    roas: Num,
    breakevenDays: Num,
    color: string)

  /** A finite, non-negative number. */
  predicate Clean(x: Num) {
    x.Fin? && x.v >= 0.0
  }

  /** Every number finite and non-negative, and a whole number of breakeven days. */
  predicate Sane(c: Channel) {
    && Clean(c.spend) && Clean(c.installs) && Clean(c.cpi)
    && Clean(c.ltv30) && Clean(c.roas) && Clean(c.breakevenDays)
    && Whole(c.breakevenDays.v)
  }

  /**
   * A sane record whose derived fields agree with their sources: CPI is the
   * cent-rounded spend per install whenever there are installs, and ROAS the
   * tenth-rounded LTV30 per CPI, as a percentage, whenever CPI is positive.
   */
  predicate Consistent(c: Channel) {
    && Sane(c)
    && (c.installs.v > 0.0 ==> c.cpi.v == RoundTo(c.spend.v / c.installs.v, 2))
    && (c.cpi.v > 0.0 ==> c.roas.v == RoundTo(c.ltv30.v / c.cpi.v * 100.0, 1))
  }

  /**
   * `normalizeChannel`. The result is consistent; identity, name and colour
   * are kept; spend, installs and LTV30 are the sanitised inputs; CPI and ROAS
   * keep their sanitised supplied values only when there is nothing to derive
   * them from; breakeven days are rounded to whole days.
   */
  function Normalize(c: Channel): (r: Channel)
    ensures Consistent(r)
    ensures r.channelId == c.channelId && r.channelName == c.channelName && r.color == c.color
    ensures r.spend == Fin(Sanitized(c.spend))
    ensures r.installs == Fin(Sanitized(c.installs))
    ensures r.ltv30 == Fin(Sanitized(c.ltv30))
    ensures Sanitized(c.installs) == 0.0 ==> r.cpi == Fin(Sanitized(c.cpi))
    ensures r.cpi.v == 0.0 ==> r.roas == Fin(Sanitized(c.roas))
    ensures Sanitized(c.breakevenDays) - 0.5 < r.breakevenDays.v <= Sanitized(c.breakevenDays) + 0.5
  {
    var spend := Sanitized(c.spend);
    var installs := Sanitized(c.installs);
    var cpi := if installs > 0.0 then RoundTo(spend / installs, 2) else Sanitized(c.cpi);
    var ltv30 := Sanitized(c.ltv30);
    var roas := if cpi > 0.0 then RoundTo(ltv30 / cpi * 100.0, 1) else Sanitized(c.roas);
    var days := RoundTo(Sanitized(c.breakevenDays), 0);
    assert cpi >= 0.0 by {
      if installs > 0.0 {
        NonNegativeQuotient(spend, installs);
        RoundToNonNegative(spend / installs, 2);
      }
    }
    assert roas >= 0.0 by {
      if cpi > 0.0 {
        NonNegativeQuotient(ltv30, cpi);
        RoundToNonNegative(ltv30 / cpi * 100.0, 1);
      }
    }
    RoundToNonNegative(Sanitized(c.breakevenDays), 0);
    RoundToZeroIsWhole(Sanitized(c.breakevenDays));
    c.(spend := Fin(spend), installs := Fin(installs), cpi := Fin(cpi), ltv30 := Fin(ltv30),
       roas := Fin(roas), breakevenDays := Fin(days))
  }

  lemma NonNegativeQuotient(a: real, b: real)
    requires a >= 0.0 && b >= 0.0
    ensures b > 0.0 ==> a / b >= 0.0
  {
  }

  /** Normalising leaves a record alone exactly when it is already consistent. */
  lemma NormalizeFixedPoints(c: Channel)
    ensures Normalize(c) == c <==> Consistent(c)
  {
    if Consistent(c) {
      RoundToWhole(c.breakevenDays.v);
    }
  }

  /** `normalizeChannel` is idempotent. */
  lemma NormalizeIdempotent(c: Channel)
    ensures Normalize(Normalize(c)) == Normalize(c)
  {
    NormalizeFixedPoints(Normalize(c));
  }

  /** The seven colours handed to new channels in turn. */
  const ChannelColors: seq<string> :=
    ["#00b4d8", "#00f5a0", "#a855f7", "#f59e0b", "#ec4899", "#6366f1", "#14b8a6"]

  /** Colour of the next channel added to a list of `count` channels. */
  function NextColor(count: nat): (r: string)
    ensures r in ChannelColors
  {
    ChannelColors[count % |ChannelColors|]
  }

  /** Colours repeat every seven channels, and the first seven channels get distinct ones. */
  lemma NextColorCycles(count: nat)
    ensures NextColor(count + |ChannelColors|) == NextColor(count)
    ensures forall m, n :: 0 <= m < n < |ChannelColors| ==> NextColor(m) != NextColor(n)
  {
    assert (count + 7) % 7 == count % 7;
  }

  /**
   * The record `addChannel` starts from; `id` stands for the clock-based
   * identifier. Its defaults (CPI 2, ROAS 150) are already consistent, so
   * normalising it changes nothing.
   */
  function NewChannel(id: string, color: string): (r: Channel)
    ensures r.channelId == id && r.color == color
    ensures Consistent(r) && Normalize(r) == r
  {
    var c := Channel(
      channelId := id, channelName := "新渠道",
      spend := Fin(10000.0), installs := Fin(5000.0), cpi := Fin(2.0), ltv30 := Fin(3.0),
      roas := Fin(150.0), breakevenDays := Fin(30.0), color := color);
    RoundUnique(200.0, 200);
    RoundUnique(1500.0, 1500);
    RoundToWhole(30.0);
    assert Consistent(c);
    NormalizeFixedPoints(c);
    c
  }

  /**
   * `addChannel`: the list grows by one normalised default record at the end,
   * in the next colour; its defaults are already consistent (CPI 2, ROAS 150).
   */
  function AddChannel(cs: seq<Channel>, id: string): (r: seq<Channel>)
    ensures |r| == |cs| + 1 && r[..|cs|] == cs
    ensures r[|cs|] == NewChannel(id, NextColor(|cs|))
    ensures r[|cs|].cpi == Fin(2.0) && r[|cs|].roas == Fin(150.0)
  {
    cs + [Normalize(NewChannel(id, NextColor(|cs|)))]
  }

  /**
   * `removeChannel`: keeps every entry whose position differs from `index`,
   * in order. A position outside the list removes nothing.
   */
  function RemoveChannel(cs: seq<Channel>, index: int): (r: seq<Channel>)
    ensures 0 <= index < |cs| ==> r == cs[..index] + cs[index + 1..]
    ensures !(0 <= index < |cs|) ==> r == cs
  {
    if |cs| == 0 then []
    else
      var rest := RemoveChannel(cs[..|cs| - 1], index);
      var last := cs[|cs| - 1];
      if |cs| - 1 == index then
        assert cs[..index] + cs[index + 1..] == cs[..|cs| - 1];
        rest
      else
        assert cs == cs[..|cs| - 1] + [last];
        assert 0 <= index < |cs| - 1 ==> cs[..index] + cs[index + 1..] == cs[..index] + cs[index + 1..|cs| - 1] + [last];
        rest + [last]
  }

  /** A single-field edit from the channel form. */
  datatype ChannelEdit =
    | SetName(name: string)
    | SetSpend(spend: Num)
    | SetInstalls(installs: Num)
    | SetCpi(cpi: Num)
    | SetLtv30(ltv30: Num)
    | SetRoas(roas: Num)
    | SetBreakevenDays(days: Num)

  /** `{ ...channel, [field]: value }`: the edited field takes the value and no other field changes. */
  function ApplyEdit(c: Channel, e: ChannelEdit): (r: Channel)
    ensures r.channelId == c.channelId && r.color == c.color
    ensures if e.SetName? then r.channelName == e.name else r.channelName == c.channelName
    ensures if e.SetSpend? then r.spend == e.spend else r.spend == c.spend
    ensures if e.SetInstalls? then r.installs == e.installs else r.installs == c.installs
    ensures if e.SetCpi? then r.cpi == e.cpi else r.cpi == c.cpi
    ensures if e.SetLtv30? then r.ltv30 == e.ltv30 else r.ltv30 == c.ltv30
    ensures if e.SetRoas? then r.roas == e.roas else r.roas == c.roas
    ensures if e.SetBreakevenDays? then r.breakevenDays == e.days else r.breakevenDays == c.breakevenDays
  {
    match e
    case SetName(n) => c.(channelName := n)
    case SetSpend(v) => c.(spend := v)
    case SetInstalls(v) => c.(installs := v)
    case SetCpi(v) => c.(cpi := v)
    case SetLtv30(v) => c.(ltv30 := v)
    case SetRoas(v) => c.(roas := v)
    case SetBreakevenDays(v) => c.(breakevenDays := v)
  }

  /**
   * `updateChannel`: entry `index` becomes the normalised edited record and
   * every other entry is unchanged.
   */
  function UpdateChannel(cs: seq<Channel>, index: int, e: ChannelEdit): (r: seq<Channel>)
    requires 0 <= index < |cs|
    ensures |r| == |cs|
    ensures r[index] == Normalize(ApplyEdit(cs[index], e))
    ensures forall j :: 0 <= j < |cs| && j != index ==> r[j] == cs[j]
  {
    cs[index := Normalize(ApplyEdit(cs[index], e))]
  }

  /** Typing a CPI into a consistent channel that has installs changes nothing. */
  lemma CpiEditOverriddenByInstalls(cs: seq<Channel>, index: int, v: Num)
    requires 0 <= index < |cs| && Consistent(cs[index])
    requires cs[index].installs.v > 0.0
    ensures UpdateChannel(cs, index, SetCpi(v)) == cs
  {
    var c := cs[index];
    NormalizeFixedPoints(c);
    assert Normalize(ApplyEdit(c, SetCpi(v))) == Normalize(c);
  }

  /** Typing a ROAS into a consistent channel with a positive CPI changes nothing. */
  lemma RoasEditOverriddenByCpi(cs: seq<Channel>, index: int, v: Num)
    requires 0 <= index < |cs| && Consistent(cs[index])
    requires cs[index].cpi.v > 0.0
    ensures UpdateChannel(cs, index, SetRoas(v)) == cs
  {
    var c := cs[index];
    NormalizeFixedPoints(c);
    assert Normalize(ApplyEdit(c, SetRoas(v))) == Normalize(c);
  }
}

=== FILE: dashboard.dfy ===
/**
 * The figures the dashboard derives from the ROI projection: the first
 * breakeven day, the breakeven figure shown on the KPI card (falling back to
 * the configured prediction), and the ROI predicted for the end of the horizon.
 */
module Dashboard {
  import opened Numbers
  import opened Maybe
  import opened Kpi
  import opened RoiProjection

  /** Position of the first breakeven entry, as `find` scans for it; `Null` when there is none. */
  function FirstBreakevenIndex(ps: seq<ROIPrediction>): (r: Nullable<nat>)
    ensures r.Null? <==> forall j :: 0 <= j < |ps| ==> !ps[j].breakeven
    ensures r.Value? ==> r.value < |ps| && ps[r.value].breakeven
    ensures r.Value? ==> forall j :: 0 <= j < r.value ==> !ps[j].breakeven
  {
    if |ps| == 0 then Null
    else if ps[0].breakeven then Value(0)
    else
      match FirstBreakevenIndex(ps[1..])
      case Null => Null
      case Value(k) => Value(k + 1)
  }

  /** `roiPredictions.find((d) => d.breakeven)?.day ?? null`. */
  function BreakevenDay(ps: seq<ROIPrediction>): (r: Nullable<int>)
    ensures r.Null? <==> forall j :: 0 <= j < |ps| ==> !ps[j].breakeven
    ensures r.Value? ==> exists i :: 0 <= i < |ps| && ps[i].breakeven && ps[i].day == r.value
                                     && forall j :: 0 <= j < i ==> !ps[j].breakeven
  {
    match FirstBreakevenIndex(ps)
    case Null => Null
    case Value(i) => Value(ps[i].day)
  }

  /** The card shows the breakeven day when there is one, else the configured prediction. */
  function DisplayBreakevenDay(ps: seq<ROIPrediction>, kpi: KPIMetrics): (r: real)
    ensures (forall j :: 0 <= j < |ps| ==> !ps[j].breakeven) ==> r == kpi.predictedBreakeven
    ensures (exists j :: 0 <= j < |ps| && ps[j].breakeven) ==>
      exists i :: 0 <= i < |ps| && ps[i].breakeven && r == ps[i].day as real
    ensures BreakevenDay(ps).Value? ==> r == BreakevenDay(ps).value as real
  {
    match BreakevenDay(ps)
    case Value(d) => d as real
    case Null => kpi.predictedBreakeven
  }

  /** The ROI of the last day, or `Null` for an empty projection. */
  function PredictedRoi(ps: seq<ROIPrediction>): (r: Nullable<real>)
    ensures r.Null? <==> |ps| == 0
    ensures r.Value? ==> r.value == ps[|ps| - 1].roi
  {
    if |ps| > 0 then Value(ps[|ps| - 1].roi) else Null
  }

  /**
   * On the projection, the breakeven day is the first day whose accumulated
   * revenue reaches a positive budget: no day before it qualifies.
   */
  lemma BreakevenDayIsFirst(p: PredictionParams, d: int)
    requires ValidParams(p)
    ensures BreakevenDay(Projection(p)) == Value(d) ==>
      && 1 <= d <= Horizon
      && p.dailyBudget > 0.0 && CumulativeRevenue(p, d) >= p.dailyBudget
      && forall e: nat :: 1 <= e < d ==> !Prediction(p, e).breakeven
  {
    var ps := Projection(p);
    if BreakevenDay(ps) == Value(d) {
      var i := FirstBreakevenIndex(ps).value;
      assert ps[i] == Prediction(p, i + 1);
      forall e: nat | 1 <= e < d
        ensures !Prediction(p, e).breakeven
      {
        assert ps[e - 1] == Prediction(p, e);
      }
    }
  }

  /** Under non-negative inputs every day from the breakeven day to the horizon is breakeven. */
  lemma BreakevenDayOnwards(p: PredictionParams, d: int, e: nat)
    requires ValidParams(p) && NonNegativeInputs(p)
    requires d <= e
    ensures BreakevenDay(Projection(p)) == Value(d) ==> Prediction(p, e).breakeven
  {
    BreakevenDayIsFirst(p, d);
    if BreakevenDay(Projection(p)) == Value(d) {
      BreakevenPersists(p, d, e);
    }
  }

  /**
   * Under non-negative inputs the projection has a breakeven day exactly when
   * the revenue accumulated over the whole horizon covers a positive budget.
   */
  lemma BreakevenDayExists(p: PredictionParams)
    requires ValidParams(p) && NonNegativeInputs(p)
    ensures BreakevenDay(Projection(p)).Value? <==>
      p.dailyBudget > 0.0 && CumulativeRevenue(p, Horizon) >= p.dailyBudget
  {
    var ps := Projection(p);
    assert ps[Horizon - 1] == Prediction(p, Horizon);
    if BreakevenDay(ps).Value? {
      BreakevenDayOnwards(p, BreakevenDay(ps).value, Horizon);
    }
  }

  /** The predicted ROI of the projection is never `Null`: it is the ROI of day 180. */
  lemma PredictedRoiOfProjection(p: PredictionParams)
    requires ValidParams(p)
    ensures PredictedRoi(Projection(p)) == Value(RoundTo(RawRoi(p, Horizon), 1))
  {
    assert Projection(p)[Horizon - 1] == Prediction(p, Horizon);
  }

  /** Under non-negative inputs the predicted ROI is the largest stored ROI of the projection. */
  lemma PredictedRoiIsPeak(p: PredictionParams, i: int)
    requires ValidParams(p) && NonNegativeInputs(p)
    requires 0 <= i < Horizon
    ensures Projection(p)[i].roi <= PredictedRoi(Projection(p)).value
  {
    PredictedRoiOfProjection(p);
    assert Projection(p)[i] == Prediction(p, i + 1);
    RoiNonDecreasing(p, i + 1, Horizon);
  }
}

=== FILE: data_config.dfy ===
/**
 * What the configuration panel commits: `handleSave` normalises every
 * channel, re-derives the KPIs from them and cleans and sorts the retention
 * rows; `handleImportFile`, once the file is parsed, does the same clean-up
 * but keeps the imported KPIs as they are.
 */
module DataConfig {
  import opened Numbers
  import opened Maybe
  import opened Channels
  import opened Kpi
  import opened Retention

  /** The three editable parts of the panel. */
  datatype Config = Config(kpi: KPIMetrics, channels: seq<Channel>, retention: seq<RetentionData>)

  /** `channels.map(normalizeChannel)`: every channel comes out consistent, and a consistent list is kept. */
  function NormalizeAll(cs: seq<Channel>): (r: seq<Channel>)
    ensures |r| == |cs|
    ensures forall i :: 0 <= i < |cs| ==> r[i] == Normalize(cs[i])
    ensures forall i :: 0 <= i < |cs| ==> Consistent(r[i]) && r[i].channelId == cs[i].channelId
    ensures (forall i :: 0 <= i < |cs| ==> Consistent(cs[i])) ==> r == cs
  {
    var r := seq(|cs|, i requires 0 <= i < |cs| => Normalize(cs[i]));
    assert (forall i :: 0 <= i < |cs| ==> Consistent(cs[i])) ==> r == cs by {
      forall i | 0 <= i < |cs| && Consistent(cs[i]) ensures r[i] == cs[i] {
        NormalizeFixedPoints(cs[i]);
      }
    }
    r
  }

  /**
   * What a commit guarantees: every channel is consistent, and the retention
   * rows are in day order with clean rates.
   */
  predicate Committed(c: Config) {
    && (forall i :: 0 <= i < |c.channels| ==> Consistent(c.channels[i]))
    && FiniteDays(c.retention) && SortedByDay(c.retention)
    && (forall i :: 0 <= i < |c.retention| ==> CleanRate(c.retention[i].rate))
  }

  /**
   * `handleSave`: the committed channels are the normalised local ones, the
   * KPIs are derived from those channels with the local KPIs as fallback, and
   * the retention rows are a day-sorted rearrangement of the rate-cleaned
   * local rows.
   */
  function SaveConfig(local: Config): (r: Config)
    requires FiniteDays(local.retention)
    ensures Committed(r)
    ensures |r.channels| == |local.channels|
    ensures r.kpi == DeriveKPI(r.channels, local.kpi)
    ensures multiset(r.retention) == multiset(CleanRates(local.retention))
    ensures r.channels == NormalizeAll(local.channels)
    ensures r.retention == SaveRetention(local.retention)
  {
    var channels := NormalizeAll(local.channels);
    Config(DeriveKPI(channels, local.kpi), channels, SaveRetention(local.retention))
  }

  /** Saving twice commits the same configuration as saving once. */
  lemma SaveConfigIdempotent(local: Config)
    requires FiniteDays(local.retention)
    ensures SaveConfig(SaveConfig(local)) == SaveConfig(local)
  {
    var saved := SaveConfig(local);
    DeriveKPIStable(saved.channels, local.kpi);
    SaveRetentionIdempotent(local.retention);
  }

  /**
   * A parsed import file. A field is `Null` when it is missing or falsy, and
   * `channels` / `retentionData` also when they are not arrays; an element of
   * either list is `Null` when it is `null` in the file.
   */
  datatype Payload = Payload(
    kpiMetrics: Nullable<KPIMetrics>,
    channels: Nullable<seq<Nullable<Channel>>>,
    retentionData: Nullable<seq<Nullable<RetentionData>>>)

  /** The outcome of an import: the new local configuration, or the error banner. */
  datatype ImportResult = Imported(config: Config) | ImportFailed

  /**
   * The checks and clean-up of `handleImportFile`. A missing field fails the
   * import, and so does a `null` channel or row, since reading a field of it
   * throws before anything is committed. Otherwise the imported KPIs are kept
   * verbatim, the channels are normalised and the retention rows have days
   * and rates cleaned and are sorted by day.
   */
  function ImportConfig(p: Payload): (r: ImportResult)
    ensures r.ImportFailed? <==>
      || p.kpiMetrics.Null? || p.channels.Null? || p.retentionData.Null?
      || !AllPresent(p.channels.value) || !AllPresent(p.retentionData.value)
    ensures r.Imported? ==> r.config.kpi == p.kpiMetrics.value
    ensures r.Imported? ==> r.config.channels == NormalizeAll(Present(p.channels.value))
    ensures r.Imported? ==> Committed(r.config)
    ensures r.Imported? ==> multiset(r.config.retention) == multiset(CleanRows(Present(p.retentionData.value)))
    ensures r.Imported? ==> r.config.retention == ImportRetention(Present(p.retentionData.value))
  {
    match (p.kpiMetrics, p.channels, p.retentionData)
    case (Value(kpi), Value(channels), Value(rows)) =>
      if AllPresent(channels) && AllPresent(rows) then
        Imported(Config(kpi, NormalizeAll(Present(channels)), ImportRetention(Present(rows))))
      else
        ImportFailed
    case _ => ImportFailed
  }

  /**
   * Importing a file, then saving, commits the imported channels and rows
   * unchanged; only the KPIs are re-derived.
   */
  lemma ImportThenSave(p: Payload)
    ensures ImportConfig(p).Imported? ==>
      SaveConfig(ImportConfig(p).config).channels == ImportConfig(p).config.channels
    ensures ImportConfig(p).Imported? ==>
      SaveConfig(ImportConfig(p).config).retention == ImportConfig(p).config.retention
  {
    if ImportConfig(p).Imported? {
      var c := ImportConfig(p).config;
      assert CleanRates(c.retention) == c.retention;
      SortKeepsSorted(c.retention);
    }
  }

}

=== FILE: kpi.dfy ===
/**
 * `deriveKPIFromChannels`: the portfolio KPIs recomputed from a channel list.
 * Totals are sums of sanitised channel figures; average CPI and overall ROAS
 * are ratios of the unrounded totals; predicted breakeven and current LTV
 * are spend- and install-weighted means. Each falls back to the previous KPI
 * figure when its denominator is zero, and an empty list keeps the previous
 * KPIs untouched.
 */
module Kpi {
  import opened Numbers
  import opened Channels

  /** Portfolio-level figures shown on the KPI cards. */
  datatype KPIMetrics = KPIMetrics(
    totalSpend: real,
    totalInstalls: real,
    totalRevenue: real,
    averageCPI: real,
    overallROAS: real,
    predictedBreakeven: real,
    currentLTV: real)

  /** Left-to-right sum, as `reduce((sum, x) => sum + x, 0)` computes it. */
  function Sum(xs: seq<real>): real {
    FoldSum(xs)
  }

  /**
   * The recursion behind `Sum`. Statements use the non-recursive `Sum`, so a
   * product with a sum is the same term wherever it is written.
   */
  function FoldSum(xs: seq<real>): real {
    if |xs| == 0 then 0.0 else FoldSum(xs[..|xs| - 1]) + xs[|xs| - 1]
  }

  /** A sum of non-negative terms is non-negative. */
  lemma {:induction false} SumNonNegative(xs: seq<real>)
    requires forall i :: 0 <= i < |xs| ==> xs[i] >= 0.0
    ensures Sum(xs) >= 0.0
  {
    if |xs| > 0 {
      var init := xs[..|xs| - 1];
      assert forall i :: 0 <= i < |init| ==> init[i] == xs[i];
      SumNonNegative(init);
    }
  }

  /** The element-wise products `vs[i] * ws[i]`. */
  function Products(vs: seq<real>, ws: seq<real>): (r: seq<real>)
    requires |vs| == |ws|
    ensures |r| == |vs| && forall i :: 0 <= i < |vs| ==> r[i] == vs[i] * ws[i]
  {
    seq(|vs|, i requires 0 <= i < |vs| => vs[i] * ws[i])
  }

  /** Every element multiplied by `c`. */
  function Scale(xs: seq<real>, c: real): (r: seq<real>)
    ensures |r| == |xs| && forall i :: 0 <= i < |xs| ==> r[i] == c * xs[i]
  {
    seq(|xs|, i requires 0 <= i < |xs| => c * xs[i])
  }

  /** Left-to-right sum of the products `vs[i] * ws[i]`. */
  function Dot(vs: seq<real>, ws: seq<real>): real
    requires |vs| == |ws|
  {
    FoldDot(vs, ws)
  }

  function FoldDot(vs: seq<real>, ws: seq<real>): real
    requires |vs| == |ws|
  {
    if |vs| == 0 then 0.0
    else FoldDot(vs[..|vs| - 1], ws[..|ws| - 1]) + vs[|vs| - 1] * ws[|ws| - 1]
  }

  function Spends(cs: seq<Channel>): (r: seq<real>)
    ensures |r| == |cs| && forall i :: 0 <= i < |cs| ==> r[i] == Sanitized(cs[i].spend)
  {
    seq(|cs|, i requires 0 <= i < |cs| => Sanitized(cs[i].spend))
  }

  function InstallCounts(cs: seq<Channel>): (r: seq<real>)
    ensures |r| == |cs| && forall i :: 0 <= i < |cs| ==> r[i] == Sanitized(cs[i].installs)
  {
    seq(|cs|, i requires 0 <= i < |cs| => Sanitized(cs[i].installs))
  }

  function Roases(cs: seq<Channel>): (r: seq<real>)
    ensures |r| == |cs| && forall i :: 0 <= i < |cs| ==> r[i] == Sanitized(cs[i].roas)
  {
    seq(|cs|, i requires 0 <= i < |cs| => Sanitized(cs[i].roas))
  }

  /** Each channel's imputed return: its spend times its own ROAS fraction. */
  function Revenues(cs: seq<Channel>): (r: seq<real>)
    ensures |r| == |cs| && forall i :: 0 <= i < |cs| ==> r[i] == Sanitized(cs[i].spend) * (Sanitized(cs[i].roas) / 100.0)
  {
    seq(|cs|, i requires 0 <= i < |cs| => Sanitized(cs[i].spend) * (Sanitized(cs[i].roas) / 100.0))
  }

  function BreakevenDaysOf(cs: seq<Channel>): (r: seq<real>)
    ensures |r| == |cs| && forall i :: 0 <= i < |cs| ==> r[i] == Sanitized(cs[i].breakevenDays)
  {
    seq(|cs|, i requires 0 <= i < |cs| => Sanitized(cs[i].breakevenDays))
  }

  function Ltvs(cs: seq<Channel>): (r: seq<real>)
    ensures |r| == |cs| && forall i :: 0 <= i < |cs| ==> r[i] == Sanitized(cs[i].ltv30)
  {
    seq(|cs|, i requires 0 <= i < |cs| => Sanitized(cs[i].ltv30))
  }

  /** Unrounded totals: never negative, since every term is sanitised, and zero without channels. */
  function TotalSpend(cs: seq<Channel>): (r: real)
    ensures r >= 0.0
    ensures |cs| == 0 ==> r == 0.0
  {
    SumNonNegative(Spends(cs));
    Sum(Spends(cs))
  }

  function TotalInstalls(cs: seq<Channel>): (r: real)
    ensures r >= 0.0
    ensures |cs| == 0 ==> r == 0.0
  {
    SumNonNegative(InstallCounts(cs));
    Sum(InstallCounts(cs))
  }

  function TotalRevenue(cs: seq<Channel>): (r: real)
    ensures r >= 0.0
    ensures |cs| == 0 ==> r == 0.0
  {
    var rs := Revenues(cs);
    assert forall i :: 0 <= i < |rs| ==> rs[i] >= 0.0 by {
      forall i | 0 <= i < |rs| ensures rs[i] >= 0.0 {
        assert Sanitized(cs[i].roas) / 100.0 >= 0.0;
      }
    }
    SumNonNegative(rs);
    Sum(rs)
  }

  /**
   * Predicted breakeven before rounding: the spend-weighted mean of the
   * channels' breakeven days, so it lies between the fastest and the slowest
   * channel.
   */
  function WeightedBreakeven(cs: seq<Channel>): (r: real)
    requires TotalSpend(cs) > 0.0
    ensures |cs| > 0 && SeqMin(BreakevenDaysOf(cs)) <= r <= SeqMax(BreakevenDaysOf(cs))
  {
    WeightedMeanBounds(BreakevenDaysOf(cs), Spends(cs));
    Dot(BreakevenDaysOf(cs), Spends(cs)) / TotalSpend(cs)
  }

  /**
   * Current LTV before rounding: the install-weighted mean of the channels'
   * LTV30, so it lies between the lowest and the highest.
   */
  function WeightedLtv(cs: seq<Channel>): (r: real)
    requires TotalInstalls(cs) > 0.0
    ensures |cs| > 0 && SeqMin(Ltvs(cs)) <= r <= SeqMax(Ltvs(cs))
  {
    WeightedMeanBounds(Ltvs(cs), InstallCounts(cs));
    Dot(Ltvs(cs), InstallCounts(cs)) / TotalInstalls(cs)
  }

  /**
   * `roundTo(averageCPI, 2)`: spend per install to the cent, or the rounded
   * fallback when there are no installs.
   */
  function AverageCpi(cs: seq<Channel>, fallback: KPIMetrics): (r: real)
    ensures TotalInstalls(cs) > 0.0 ==>
      TotalSpend(cs) / TotalInstalls(cs) - 0.005 < r <= TotalSpend(cs) / TotalInstalls(cs) + 0.005
    ensures TotalInstalls(cs) == 0.0 ==> r == RoundTo(fallback.averageCPI, 2)
    ensures Whole(r * 100.0)
  {
    var x := if TotalInstalls(cs) > 0.0 then TotalSpend(cs) / TotalInstalls(cs) else fallback.averageCPI;
    RoundToOnGridPoint(x, 2);
    RoundTo(x, 2)
  }

  /**
   * `roundTo(overallROAS, 1)`: revenue over spend as a percentage to a tenth,
   * or the rounded fallback when nothing was spent.
   */
  function OverallRoas(cs: seq<Channel>, fallback: KPIMetrics): (r: real)
    ensures TotalSpend(cs) > 0.0 ==>
      TotalRevenue(cs) / TotalSpend(cs) * 100.0 - 0.05 < r <= TotalRevenue(cs) / TotalSpend(cs) * 100.0 + 0.05
    ensures TotalSpend(cs) == 0.0 ==> r == RoundTo(fallback.overallROAS, 1)
    ensures Whole(r * 10.0)
  {
    var x := if TotalSpend(cs) > 0.0 then TotalRevenue(cs) / TotalSpend(cs) * 100.0 else fallback.overallROAS;
    RoundToOnGridPoint(x, 1);
    RoundTo(x, 1)
  }

  /**
   * `roundTo(weightedBreakeven, 0)`: the spend-weighted breakeven in whole
   * days, or the rounded fallback when nothing was spent.
   */
  function PredictedBreakeven(cs: seq<Channel>, fallback: KPIMetrics): (r: real)
    ensures TotalSpend(cs) > 0.0 ==> WeightedBreakeven(cs) - 0.5 < r <= WeightedBreakeven(cs) + 0.5
    ensures TotalSpend(cs) == 0.0 ==> r == RoundTo(fallback.predictedBreakeven, 0)
    ensures Whole(r)
  {
    var x := if TotalSpend(cs) > 0.0 then WeightedBreakeven(cs) else fallback.predictedBreakeven;
    RoundToZeroIsWhole(x);
    RoundTo(x, 0)
  }

  /**
   * `roundTo(weightedLtv, 2)`: the install-weighted LTV30 to the cent, or the
   * rounded fallback when there are no installs.
   */
  function CurrentLtv(cs: seq<Channel>, fallback: KPIMetrics): (r: real)
    ensures TotalInstalls(cs) > 0.0 ==> WeightedLtv(cs) - 0.005 < r <= WeightedLtv(cs) + 0.005
    ensures TotalInstalls(cs) == 0.0 ==> r == RoundTo(fallback.currentLTV, 2)
    ensures Whole(r * 100.0)
  {
    var x := if TotalInstalls(cs) > 0.0 then WeightedLtv(cs) else fallback.currentLTV;
    RoundToOnGridPoint(x, 2);
    RoundTo(x, 2)
  }

  /**
   * Each average has the precision `roundTo` gives it: CPI and LTV in cents,
   * ROAS in tenths of a percent, breakeven in whole days.
   */
  predicate AveragesOnGrid(k: KPIMetrics) {
    && Whole(k.averageCPI * 100.0) && Whole(k.overallROAS * 10.0)
    && Whole(k.predictedBreakeven) && Whole(k.currentLTV * 100.0)
  }

  /**
   * `deriveKPIFromChannels` past its empty-list check: the three totals are
   * the unrounded sums rounded to whole numbers, and each average is
   * `roundTo` of its formula, or of the fallback figure when its denominator
   * total is zero.
   */
  function DeriveFromChannels(cs: seq<Channel>, fallback: KPIMetrics): KPIMetrics {
    KPIMetrics(
      totalSpend := RoundTo(TotalSpend(cs), 0),
      totalInstalls := RoundTo(TotalInstalls(cs), 0),
      totalRevenue := RoundTo(TotalRevenue(cs), 0),
      averageCPI := AverageCpi(cs, fallback),
      overallROAS := OverallRoas(cs, fallback),
      predictedBreakeven := PredictedBreakeven(cs, fallback),
      currentLTV := CurrentLtv(cs, fallback))
  }

  /** The derived totals are whole, non-negative and within half a unit of the sums. */
  lemma DerivedTotals(cs: seq<Channel>, fallback: KPIMetrics)
    ensures var r := DeriveFromChannels(cs, fallback);
      && r.totalSpend >= 0.0 && Whole(r.totalSpend) && TotalSpend(cs) - 0.5 < r.totalSpend <= TotalSpend(cs) + 0.5
      && r.totalInstalls >= 0.0 && Whole(r.totalInstalls)
      && TotalInstalls(cs) - 0.5 < r.totalInstalls <= TotalInstalls(cs) + 0.5
      && r.totalRevenue >= 0.0 && Whole(r.totalRevenue)
      && TotalRevenue(cs) - 0.5 < r.totalRevenue <= TotalRevenue(cs) + 0.5
  {
    RoundedTotal(TotalSpend(cs));
    RoundedTotal(TotalInstalls(cs));
    RoundedTotal(TotalRevenue(cs));
  }

  /**
   * Every derived average went through `roundTo`. The grid facts are taken
   * two fields at a time, which keeps each proof small.
   */
  lemma DerivedAveragesOnGrid(cs: seq<Channel>, fallback: KPIMetrics)
    ensures AveragesOnGrid(DeriveFromChannels(cs, fallback))
  {
    var k := DeriveFromChannels(cs, fallback);
    DerivedAverages(cs, fallback);
    CpiAndRoasOnGrid(k, cs, fallback);
    BreakevenAndLtvOnGrid(k, cs, fallback);
    GridFromFields(k);
  }

  lemma DerivedAverages(cs: seq<Channel>, fallback: KPIMetrics)
    ensures var k := DeriveFromChannels(cs, fallback);
      && k.averageCPI == AverageCpi(cs, fallback) && k.overallROAS == OverallRoas(cs, fallback)
      && k.predictedBreakeven == PredictedBreakeven(cs, fallback) && k.currentLTV == CurrentLtv(cs, fallback)
  {
  }

  lemma CpiAndRoasOnGrid(k: KPIMetrics, cs: seq<Channel>, fallback: KPIMetrics)
    requires k.averageCPI == AverageCpi(cs, fallback) && k.overallROAS == OverallRoas(cs, fallback)
    ensures Whole(k.averageCPI * 100.0) && Whole(k.overallROAS * 10.0)
  {
  }

  lemma BreakevenAndLtvOnGrid(k: KPIMetrics, cs: seq<Channel>, fallback: KPIMetrics)
    requires k.predictedBreakeven == PredictedBreakeven(cs, fallback) && k.currentLTV == CurrentLtv(cs, fallback)
    ensures Whole(k.predictedBreakeven) && Whole(k.currentLTV * 100.0)
  {
  }

  /** The grid facts of the four fields, gathered into one. */
  lemma GridFromFields(k: KPIMetrics)
    requires Whole(k.averageCPI * 100.0) && Whole(k.overallROAS * 10.0)
    requires Whole(k.predictedBreakeven) && Whole(k.currentLTV * 100.0)
    ensures AveragesOnGrid(k)
  {
  }

  /**
   * `deriveKPIFromChannels(channels, fallback)`. An empty list returns the
   * fallback itself. Otherwise the three totals are the unrounded sums
   * rounded to whole numbers, each average with a positive denominator is its
   * unrounded quotient rounded to the field's precision, and an average whose
   * denominator total is zero is the fallback figure, still passed through
   * the same rounding.
   */
  function DeriveKPI(cs: seq<Channel>, fallback: KPIMetrics): (r: KPIMetrics)
    ensures |cs| == 0 ==> r == fallback
    ensures |cs| > 0 ==> r.totalSpend >= 0.0 && Whole(r.totalSpend)
    ensures |cs| > 0 ==> r.totalInstalls >= 0.0 && Whole(r.totalInstalls)
    ensures |cs| > 0 ==> r.totalRevenue >= 0.0 && Whole(r.totalRevenue)
    ensures |cs| > 0 && TotalInstalls(cs) == 0.0 ==>
      r.averageCPI == RoundTo(fallback.averageCPI, 2) && r.currentLTV == RoundTo(fallback.currentLTV, 2)
    ensures |cs| > 0 && TotalSpend(cs) == 0.0 ==>
      r.overallROAS == RoundTo(fallback.overallROAS, 1)
      && r.predictedBreakeven == RoundTo(fallback.predictedBreakeven, 0)
    ensures |cs| > 0 ==> TotalSpend(cs) - 0.5 < r.totalSpend <= TotalSpend(cs) + 0.5
    ensures |cs| > 0 ==> TotalInstalls(cs) - 0.5 < r.totalInstalls <= TotalInstalls(cs) + 0.5
    ensures |cs| > 0 ==> TotalRevenue(cs) - 0.5 < r.totalRevenue <= TotalRevenue(cs) + 0.5
    ensures |cs| > 0 && TotalInstalls(cs) > 0.0 ==>
      TotalSpend(cs) / TotalInstalls(cs) - 0.005 < r.averageCPI <= TotalSpend(cs) / TotalInstalls(cs) + 0.005
    ensures |cs| > 0 && TotalSpend(cs) > 0.0 ==>
      TotalRevenue(cs) / TotalSpend(cs) * 100.0 - 0.05 < r.overallROAS <= TotalRevenue(cs) / TotalSpend(cs) * 100.0 + 0.05
    ensures |cs| > 0 && TotalSpend(cs) > 0.0 ==>
      WeightedBreakeven(cs) - 0.5 < r.predictedBreakeven <= WeightedBreakeven(cs) + 0.5
    ensures |cs| > 0 && TotalInstalls(cs) > 0.0 ==>
      WeightedLtv(cs) - 0.005 < r.currentLTV <= WeightedLtv(cs) + 0.005
    ensures |cs| > 0 ==> AveragesOnGrid(r)
  {
    if |cs| == 0 then fallback
    else
      DerivedTotals(cs, fallback);
      DerivedAveragesOnGrid(cs, fallback);
      DeriveFromChannels(cs, fallback)
  }

  lemma RoundedTotal(x: real)
    requires x >= 0.0
    ensures RoundTo(x, 0) >= 0.0 && Whole(RoundTo(x, 0))
  {
    RoundToNonNegative(x, 0);
    RoundToZeroIsWhole(x);
  }

  /** Smallest element of a non-empty sequence. */
  function SeqMin(xs: seq<real>): (r: real)
    requires |xs| > 0
    ensures exists i :: 0 <= i < |xs| && xs[i] == r
    ensures forall i :: 0 <= i < |xs| ==> r <= xs[i]
  {
    if |xs| == 1 then xs[0]
    else
      var m := SeqMin(xs[..|xs| - 1]);
      assert forall i :: 0 <= i < |xs| - 1 ==> xs[..|xs| - 1][i] == xs[i];
      if xs[|xs| - 1] < m then xs[|xs| - 1] else m
  }

  /** Largest element of a non-empty sequence. */
  function SeqMax(xs: seq<real>): (r: real)
    requires |xs| > 0
    ensures exists i :: 0 <= i < |xs| && xs[i] == r
    ensures forall i :: 0 <= i < |xs| ==> xs[i] <= r
  {
    if |xs| == 1 then xs[0]
    else
      var m := SeqMax(xs[..|xs| - 1]);
      assert forall i :: 0 <= i < |xs| - 1 ==> xs[..|xs| - 1][i] == xs[i];
      if xs[|xs| - 1] > m then xs[|xs| - 1] else m
  }

  /** Sums are monotone in their terms. */
  lemma {:induction false} SumMonotone(xs: seq<real>, ys: seq<real>)
    requires |xs| == |ys|
    requires forall i :: 0 <= i < |xs| ==> xs[i] <= ys[i]
    ensures Sum(xs) <= Sum(ys)
  {
    if |xs| > 0 {
      var n := |xs| - 1;
      assert forall i :: 0 <= i < n ==> xs[..n][i] == xs[i] && ys[..n][i] == ys[i];
      SumMonotone(xs[..n], ys[..n]);
    }
  }

  /** A constant factor comes out of a sum. */
  lemma {:induction false} SumScale(xs: seq<real>, c: real)
    ensures Sum(Scale(xs, c)) == c * Sum(xs)
  {
    if |xs| > 0 {
      var n := |xs| - 1;
      ScaleTake(xs, c);
      SumScale(xs[..n], c);
      var s := Sum(xs[..n]);
      assert Sum(Scale(xs, c)) == c * s + c * xs[n];
      ScaleStep(c, s, xs[n], Sum(xs));
    } else {
      ScaleStep(c, 0.0, 0.0, Sum(xs));
    }
  }

  lemma ScaleTake(xs: seq<real>, c: real)
    requires |xs| > 0
    ensures Scale(xs, c)[..|xs| - 1] == Scale(xs[..|xs| - 1], c)
  {
    var n := |xs| - 1;
    forall i | 0 <= i < n ensures Scale(xs, c)[..n][i] == Scale(xs[..n], c)[i] {
      assert xs[..n][i] == xs[i];
    }
  }

  lemma ScaleStep(c: real, s: real, w: real, s': real)
    requires s' == s + w
    ensures c * s' == c * s + c * w
  {
  }

  lemma TermBounds(vs: seq<real>, ws: seq<real>, lo: real, hi: real, i: int)
    requires |vs| == |ws| && 0 <= i < |vs|
    requires lo <= vs[i] <= hi && ws[i] >= 0.0
    ensures Scale(ws, lo)[i] <= Products(vs, ws)[i] <= Scale(ws, hi)[i]
  {
    ScaleMonotone(lo, vs[i], ws[i]);
    ScaleMonotone(vs[i], hi, ws[i]);
  }

  /** The recursive dot product is the sum of the element-wise products. */
  lemma {:induction false} DotIsSumOfProducts(vs: seq<real>, ws: seq<real>)
    requires |vs| == |ws|
    ensures Dot(vs, ws) == Sum(Products(vs, ws))
  {
    if |vs| > 0 {
      var n := |vs| - 1;
      ProductsTake(vs, ws);
      DotIsSumOfProducts(vs[..n], ws[..n]);
    }
  }

  lemma ProductsTake(vs: seq<real>, ws: seq<real>)
    requires |vs| == |ws| > 0
    ensures Products(vs, ws)[..|vs| - 1] == Products(vs[..|vs| - 1], ws[..|ws| - 1])
  {
    var n := |vs| - 1;
    forall i | 0 <= i < n ensures Products(vs, ws)[..n][i] == Products(vs[..n], ws[..n])[i] {
      assert vs[..n][i] == vs[i] && ws[..n][i] == ws[i];
    }
  }

  /** A weighted sum with non-negative weights lies between the extreme values times the total weight. */
  lemma DotBounds(vs: seq<real>, ws: seq<real>, lo: real, hi: real)
    requires |vs| == |ws|
    requires forall i :: 0 <= i < |ws| ==> ws[i] >= 0.0
    requires forall i :: 0 <= i < |vs| ==> lo <= vs[i] <= hi
    ensures lo * Sum(ws) <= Dot(vs, ws) <= hi * Sum(ws)
  {
    DotIsSumOfProducts(vs, ws);
    var ps, below, above := Products(vs, ws), Scale(ws, lo), Scale(ws, hi);
    forall i | 0 <= i < |vs| ensures below[i] <= ps[i] <= above[i] {
      TermBounds(vs, ws, lo, hi, i);
    }
    SumMonotone(below, ps);
    SumMonotone(ps, above);
    SumScale(ws, lo);
    SumScale(ws, hi);
  }

  /** A quotient of a value lying between two multiples of a positive divisor. */
  lemma QuotientBetween(lo: real, hi: real, d: real, w: real)
    requires w > 0.0 && lo * w <= d <= hi * w
    ensures lo <= d / w <= hi
  {
    DivideMonotone(lo * w, d, w);
    DivideMonotone(d, hi * w, w);
    assert lo * w / w == lo;
    assert hi * w / w == hi;
  }

  /** A weighted mean with positive total weight lies between any bounds of the values. */
  lemma MeanBetween(vs: seq<real>, ws: seq<real>, lo: real, hi: real)
    requires |vs| == |ws|
    requires forall i :: 0 <= i < |ws| ==> ws[i] >= 0.0
    requires forall i :: 0 <= i < |vs| ==> lo <= vs[i] <= hi
    requires Sum(ws) > 0.0
    ensures lo <= Dot(vs, ws) / Sum(ws) <= hi
  {
    DotBounds(vs, ws, lo, hi);
    DotQuotientBetween(vs, ws, lo, hi);
  }

  lemma DotQuotientBetween(vs: seq<real>, ws: seq<real>, lo: real, hi: real)
    requires |vs| == |ws| && Sum(ws) > 0.0
    requires lo * Sum(ws) <= Dot(vs, ws) <= hi * Sum(ws)
    ensures lo <= Dot(vs, ws) / Sum(ws) <= hi
  {
    QuotientBetween(lo, hi, Dot(vs, ws), Sum(ws));
  }

  /** A weighted mean with positive total weight lies between the smallest and largest value. */
  lemma WeightedMeanBounds(vs: seq<real>, ws: seq<real>)
    requires |vs| == |ws| > 0
    requires forall i :: 0 <= i < |ws| ==> ws[i] >= 0.0
    requires Sum(ws) > 0.0
    ensures SeqMin(vs) <= Dot(vs, ws) / Sum(ws) <= SeqMax(vs)
  {
    MeanBetween(vs, ws, SeqMin(vs), SeqMax(vs));
  }

  /**
   * For sane channels (whole breakeven days), the stored predicted breakeven
   * is itself between the fastest and slowest channel's breakeven days.
   */
  lemma PredictedBreakevenWithinChannels(cs: seq<Channel>, fallback: KPIMetrics)
    requires |cs| > 0 && TotalSpend(cs) > 0.0
    requires forall i :: 0 <= i < |cs| ==> Sane(cs[i])
    ensures SeqMin(BreakevenDaysOf(cs)) <= DeriveKPI(cs, fallback).predictedBreakeven <= SeqMax(BreakevenDaysOf(cs))
  {
    var days := BreakevenDaysOf(cs);
    var lo, hi := SeqMin(days), SeqMax(days);
    RoundToMonotone(lo, WeightedBreakeven(cs), 0);
    RoundToMonotone(WeightedBreakeven(cs), hi, 0);
    var i :| 0 <= i < |days| && days[i] == lo;
    var j :| 0 <= j < |days| && days[j] == hi;
    assert Sane(cs[i]) && Sane(cs[j]);
    RoundToWhole(lo);
    RoundToWhole(hi);
  }

  /** Summing spend times ROAS fraction is the ROAS-by-spend dot product over 100. */
  lemma RevenueIsRoasDot(cs: seq<Channel>)
    ensures TotalRevenue(cs) * 100.0 == Dot(Roases(cs), Spends(cs))
  {
    var rs, vs, ws := Revenues(cs), Roases(cs), Spends(cs);
    forall i | 0 <= i < |rs| ensures Scale(rs, 100.0)[i] == Products(vs, ws)[i] {
      PercentOfSpend(ws[i], vs[i]);
    }
    assert Scale(rs, 100.0) == Products(vs, ws);
    SumScale(rs, 100.0);
    DotIsSumOfProducts(vs, ws);
  }

  lemma PercentOfSpend(spend: real, roas: real)
    ensures 100.0 * (spend * (roas / 100.0)) == roas * spend
  {
  }

  /**
   * Before rounding, the overall ROAS is the spend-weighted mean of the
   * channels' ROAS, so it lies between the smallest and largest of them.
   */
  lemma OverallRoasWithinChannels(cs: seq<Channel>)
    requires |cs| > 0 && TotalSpend(cs) > 0.0
    ensures SeqMin(Roases(cs)) <= TotalRevenue(cs) / TotalSpend(cs) * 100.0 <= SeqMax(Roases(cs))
  {
    RevenueIsRoasDot(cs);
    var t := TotalSpend(cs);
    assert TotalRevenue(cs) / t * 100.0 == Dot(Roases(cs), Spends(cs)) / t;
    WeightedMeanBounds(Roases(cs), Spends(cs));
  }

  /**
   * Recomputing the KPIs from the same channels, with the previous result as
   * the fallback, changes nothing: saving twice is saving once.
   */
  lemma DeriveKPIStable(cs: seq<Channel>, fallback: KPIMetrics)
    ensures DeriveKPI(cs, DeriveKPI(cs, fallback)) == DeriveKPI(cs, fallback)
  {
    if |cs| > 0 {
      RoundToIdempotent(fallback.averageCPI, 2);
      RoundToIdempotent(fallback.overallROAS, 1);
      RoundToIdempotent(fallback.predictedBreakeven, 0);
      RoundToIdempotent(fallback.currentLTV, 2);
    }
  }

  /** Appending a channel adds its sanitised spend and installs to the raw totals. */
  lemma TotalsOfAppend(cs: seq<Channel>, c: Channel)
    ensures TotalSpend(cs + [c]) == TotalSpend(cs) + Sanitized(c.spend)
    ensures TotalInstalls(cs + [c]) == TotalInstalls(cs) + Sanitized(c.installs)
  {
    assert Spends(cs + [c])[..|cs|] == Spends(cs);
    assert InstallCounts(cs + [c])[..|cs|] == InstallCounts(cs);
  }

  /** A new default channel adds 10000 of spend and 5000 installs to the totals. */
  lemma AddChannelTotals(cs: seq<Channel>, id: string)
    ensures TotalSpend(AddChannel(cs, id)) == TotalSpend(cs) + 10000.0
    ensures TotalInstalls(AddChannel(cs, id)) == TotalInstalls(cs) + 5000.0
  {
    var r := AddChannel(cs, id);
    assert r == cs + [r[|cs|]];
    TotalsOfAppend(cs, r[|cs|]);
  }

  /**
   * A portfolio of one consistent channel with installs reports that
   * channel's own CPI as its average CPI, and (with spend) its own breakeven
   * days as the predicted breakeven.
   */
  lemma SingleChannelPortfolio(c: Channel, fallback: KPIMetrics)
    requires Consistent(c)
    ensures c.installs.v > 0.0 ==> DeriveKPI([c], fallback).averageCPI == c.cpi.v
    ensures c.spend.v > 0.0 ==> DeriveKPI([c], fallback).predictedBreakeven == c.breakevenDays.v
  {
    DeriveKPIAverages([c], fallback);
    if c.installs.v > 0.0 {
      SingleChannelCpi(c, fallback);
    }
    if c.spend.v > 0.0 {
      SingleChannelBreakeven(c, fallback);
    }
  }

  /** A non-empty list's averages are the four rounded averages. */
  lemma DeriveKPIAverages(cs: seq<Channel>, fallback: KPIMetrics)
    requires |cs| > 0
    ensures DeriveKPI(cs, fallback).averageCPI == AverageCpi(cs, fallback)
    ensures DeriveKPI(cs, fallback).predictedBreakeven == PredictedBreakeven(cs, fallback)
  {
  }

  lemma SingleChannelCpi(c: Channel, fallback: KPIMetrics)
    requires Consistent(c) && c.installs.v > 0.0
    ensures AverageCpi([c], fallback) == c.cpi.v
  {
    SingleChannelTotals(c);
    RoundToIdempotent(c.spend.v / c.installs.v, 2);
  }

  lemma SingleChannelBreakeven(c: Channel, fallback: KPIMetrics)
    requires Consistent(c) && c.spend.v > 0.0
    ensures PredictedBreakeven([c], fallback) == c.breakevenDays.v
  {
    SingleChannelWeightedBreakeven(c);
    assert PredictedBreakeven([c], fallback) == RoundTo(c.breakevenDays.v, 0);
    RoundToWhole(c.breakevenDays.v);
  }

  lemma SingleChannelWeightedBreakeven(c: Channel)
    requires Consistent(c) && c.spend.v > 0.0
    ensures TotalSpend([c]) == c.spend.v && WeightedBreakeven([c]) == c.breakevenDays.v
  {
    SingleChannelTotals(c);
    CancelFactor(c.breakevenDays.v, c.spend.v);
  }

  lemma SingleChannelTotals(c: Channel)
    requires Sane(c)
    ensures TotalSpend([c]) == c.spend.v && TotalInstalls([c]) == c.installs.v
    ensures Dot(BreakevenDaysOf([c]), Spends([c])) == c.breakevenDays.v * c.spend.v
  {
    var cs := [c];
    assert Spends(cs) == [c.spend.v];
    assert InstallCounts(cs) == [c.installs.v];
    assert BreakevenDaysOf(cs) == [c.breakevenDays.v];
    SumSingleton(c.spend.v);
    SumSingleton(c.installs.v);
    DotSingleton(c.breakevenDays.v, c.spend.v);
  }

  lemma CancelFactor(b: real, w: real)
    requires w != 0.0
    ensures b * w / w == b
  {
  }

  lemma SumSingleton(x: real)
    ensures Sum([x]) == x
  {
    assert [x][..0] == [];
    assert FoldSum([x]) == FoldSum([]) + x;
  }

  lemma DotSingleton(v: real, w: real)
    ensures Dot([v], [w]) == v * w
  {
    assert [v][..0] == [] && [w][..0] == [];
    assert FoldDot([v], [w]) == FoldDot([], []) + v * w;
  }

  /** One channel spending 1000 for 500 installs at 150% ROAS: revenue 1500, CPI 2. */
  lemma SingleChannelExample(fallback: KPIMetrics)
    ensures var c := Channel("c", "c", Fin(1000.0), Fin(500.0), Fin(2.0), Fin(3.0), Fin(150.0), Fin(30.0), "#00b4d8");
            DeriveKPI([c], fallback).totalRevenue == 1500.0 && DeriveKPI([c], fallback).averageCPI == 2.0
  {
    var c := Channel("c", "c", Fin(1000.0), Fin(500.0), Fin(2.0), Fin(3.0), Fin(150.0), Fin(30.0), "#00b4d8");
    var cs := [c];
    assert Revenues(cs) == [1500.0];
    SumSingleton(1500.0);
    SumSingleton(1000.0);
    SumSingleton(500.0);
    assert Spends(cs) == [1000.0];
    assert InstallCounts(cs) == [500.0];
    DerivedAverages(cs, fallback);
    RoundUnique(1500.0, 1500);
    RoundUnique(200.0, 200);
  }
}

=== FILE: maybe.dfy ===
/** A value that may be absent, the `T | null` of the dashboard, panel and reading pages. */
module Maybe {

  datatype Nullable<+T> = Null | Value(value: T)

  /** Every element of the list is present (none is `null`). */
  predicate AllPresent<T>(xs: seq<Nullable<T>>) {
    forall i :: 0 <= i < |xs| ==> xs[i].Value?
  }

  /** The elements of a list with no `null` in it, unwrapped in order. */
  function Present<T>(xs: seq<Nullable<T>>): (r: seq<T>)
    requires AllPresent(xs)
    ensures |r| == |xs|
    ensures forall i :: 0 <= i < |xs| ==> Value(r[i]) == xs[i]
  {
    seq(|xs|, i requires 0 <= i < |xs| => xs[i].value)
  }
}

=== FILE: numbers.dfy ===
/**
 * The numeric helpers the analytics code is built from: the non-finite
 * aware `sanitizeNumber`, JavaScript's `Math.round`, the decimal `roundTo`
 * and `Math.pow` with a natural exponent, all over exact reals.
 */
module Numbers {

  /** A JavaScript number: finite, or one of NaN / +Infinity / -Infinity. */
  datatype Num = Fin(v: real) | NonFinite

  /** True when `x` is a whole number. */
  predicate Whole(x: real) {
    x.Floor as real == x
  }

  /**
   * `sanitizeNumber(value, min)`: non-finite input becomes `min`, finite input
   * is clamped from below at `min`.
   */
  function Sanitize(x: Num, min: real): (r: real)
    ensures r >= min
    ensures x.NonFinite? ==> r == min
    ensures x.Fin? && x.v >= min ==> r == x.v
    ensures x.Fin? && x.v < min ==> r == min
  {
    match x
    case NonFinite => min
    case Fin(v) => if v < min then min else v
  }

  /** `sanitizeNumber(x)` with its default floor of 0. */
  function Sanitized(x: Num): (r: real)
    ensures r >= 0.0
    ensures x.Fin? && x.v >= 0.0 ==> r == x.v
  {
    Sanitize(x, 0.0)
  }

  /** A sanitised value is a fixed point of sanitising. */
  lemma SanitizeIdempotent(x: Num, min: real)
    ensures Sanitize(Fin(Sanitize(x, min)), min) == Sanitize(x, min)
  {
  }

  /**
   * `Math.round`: the nearest integer, halves rounded towards +Infinity, i.e.
   * the one integer in the half-open window (x - 1/2, x + 1/2].
   */
  function Round(x: real): (n: int)
    ensures x - 0.5 < n as real <= x + 0.5
  {
    assert x - 0.5 < (x + 0.5).Floor as real <= x + 0.5;
    var n: int :| x - 0.5 < n as real <= x + 0.5;
    n
  }

  /** `Math.round(x)` is `Math.floor(x + 0.5)`. */
  lemma RoundIsFloor(x: real)
    ensures Round(x) == (x + 0.5).Floor
  {
  }

  lemma RoundUnique(x: real, n: int)
    requires x - 0.5 < n as real <= x + 0.5
    ensures Round(x) == n
  {
  }

  lemma RoundMonotone(x: real, y: real)
    requires x <= y
    ensures Round(x) <= Round(y)
  {
  }

  lemma RoundWhole(n: int)
    ensures Round(n as real) == n
  {
    RoundUnique(n as real, n);
  }

  /** The decimal precisions `roundTo` is called with: whole numbers, tenths, cents. */
  newtype Digits = d: int | 0 <= d <= 2

  /** `10 ** digits`. */
  function Pow10(digits: Digits): (r: real)
    ensures r >= 1.0
  {
    if digits == 0 then 1.0 else if digits == 1 then 10.0 else 100.0
  }

  /**
   * `roundTo(value, digits)`: `value` rounded to `digits` decimals; the result
   * is within half a step of the 10^-digits grid of `value`.
   */
  function RoundTo(x: real, digits: Digits): (r: real)
    ensures x - 0.5 / Pow10(digits) < r <= x + 0.5 / Pow10(digits)
  {
    var base := Pow10(digits);
    var n := Round(x * base) as real;
    assert (n - x * base) / base == n / base - x;
    assert 0.5 / base * base == 0.5;
    n / base
  }

  /** `RoundTo` as the grid point it picks: the rounded scaled value, scaled back. */
  lemma RoundToGrid(x: real, digits: Digits) returns (k: int)
    ensures k == Round(x * Pow10(digits))
    ensures RoundTo(x, digits) == k as real / Pow10(digits)
  {
    k := Round(x * Pow10(digits));
  }

  lemma Unscale(k: int, base: real, r: real)
    requires base >= 1.0 && r == k as real / base
    ensures r * base == k as real
  {
  }

  /** The result of `RoundTo` lies on the 10^-digits grid. */
  lemma RoundToOnGridPoint(x: real, digits: Digits)
    ensures Whole(RoundTo(x, digits) * Pow10(digits))
  {
    var k := RoundToGrid(x, digits);
    Unscale(k, Pow10(digits), RoundTo(x, digits));
    assert (k as real).Floor == k;
  }

  lemma ScaleMonotone(a: real, b: real, c: real)
    requires a <= b && c >= 0.0
    ensures a * c <= b * c
  {
    assert b * c - a * c == (b - a) * c;
  }

  lemma DivideMonotone(a: real, b: real, c: real)
    requires a <= b && c > 0.0
    ensures a / c <= b / c
  {
    assert b / c - a / c == (b - a) / c;
  }

  lemma CancelScale(x: real, base: real, k: int, r: real)
    requires base >= 1.0 && k as real == x * base && r == k as real / base
    ensures r == x
  {
  }

  /** A value already on the grid is left alone. */
  lemma RoundToOnGrid(x: real, digits: Digits)
    requires Whole(x * Pow10(digits))
    ensures RoundTo(x, digits) == x
  {
    var k := (x * Pow10(digits)).Floor;
    RoundWhole(k);
    var k' := RoundToGrid(x, digits);
    assert k' == k;
    CancelScale(x, Pow10(digits), k, RoundTo(x, digits));
  }

  lemma RoundToIdempotent(x: real, digits: Digits)
    ensures RoundTo(RoundTo(x, digits), digits) == RoundTo(x, digits)
  {
    RoundToOnGridPoint(x, digits);
    RoundToOnGrid(RoundTo(x, digits), digits);
  }

  lemma RoundToMonotone(x: real, y: real, digits: Digits)
    requires x <= y
    ensures RoundTo(x, digits) <= RoundTo(y, digits)
  {
    ScaleMonotone(x, y, Pow10(digits));
    var a := RoundToGrid(x, digits);
    var b := RoundToGrid(y, digits);
    RoundMonotone(x * Pow10(digits), y * Pow10(digits));
    DivideMonotone(a as real, b as real, Pow10(digits));
  }

  lemma RoundToNonNegative(x: real, digits: Digits)
    requires x >= 0.0
    ensures RoundTo(x, digits) >= 0.0
  {
    RoundToMonotone(0.0, x, digits);
    RoundToOnGrid(0.0, digits);
  }

  /** A whole number rounded to whole numbers is unchanged. */
  lemma RoundToWhole(x: real)
    requires Whole(x)
    ensures RoundTo(x, 0) == x
  {
    RoundToOnGrid(x, 0);
  }

  /** Rounding to whole numbers yields a whole number. */
  lemma RoundToZeroIsWhole(x: real)
    ensures Whole(RoundTo(x, 0))
  {
    RoundToOnGridPoint(x, 0);
  }

  /** `Math.pow(base, n)` for a natural exponent. */
  function Pow(base: real, n: nat): (r: real)
    ensures base >= 0.0 ==> r >= 0.0
    ensures 0.0 <= base <= 1.0 ==> r <= 1.0
  {
    if n == 0 then 1.0
    else
      var rest := Pow(base, n - 1);
      ProductBounds(base, rest);
      base * rest
  }

  /** Sign and size of a product with a non-negative factor. */
  lemma ProductBounds(a: real, c: real)
    ensures a >= 0.0 && c >= 0.0 ==> a * c >= 0.0
    ensures 0.0 <= a <= 1.0 && c >= 0.0 ==> a * c <= c
  {
    if 0.0 <= a && c >= 0.0 {
      ScaleMonotone(0.0, a, c);
    }
    if 0.0 <= a <= 1.0 && c >= 0.0 {
      ScaleMonotone(a, 1.0, c);
    }
  }

  lemma PowStep(base: real, k: nat)
    requires 0.0 <= base <= 1.0
    ensures Pow(base, k + 1) <= Pow(base, k)
  {
    var rest := Pow(base, k);
    assert Pow(base, k + 1) == base * rest;
    ProductBounds(base, rest);
  }

  /** Powers of a base in [0, 1] do not grow with the exponent. */
  lemma {:induction false} PowAntitone(base: real, m: nat, n: nat)
    requires 0.0 <= base <= 1.0
    requires m <= n
    ensures Pow(base, n) <= Pow(base, m)
  {
    if m < n {
      PowAntitone(base, m, n - 1);
      PowStep(base, n - 1);
    }
  }
}

=== FILE: reading.dfy ===
/**
 * The tarot reading page as a transition system. The page state is the
 * phase, the drawn cards, how many of them are face up and which one is
 * selected; the 800 ms timer that `handleRevealCard` starts on the last
 * reveal is modelled as a count of pending completions and an explicit
 * `TimerFired` event. The shuffled deck is an input of the start event.
 */
module Reading {
  import opened Maybe

  /** `'intro' | 'drawing' | 'revealing' | 'complete'`. */
  datatype Phase = Intro | Drawing | Revealing | Complete

  /** A card of the deck, reduced to what identifies it. */
  datatype TarotCard = TarotCard(id: int, name: string)

  /** One slot of a spread layout. */
  datatype SpreadPosition = SpreadPosition(id: int, name: string)

  /** A spread: how many cards it asks for and where they go. */
  datatype Spread = Spread(id: string, name: string, cardCount: int, positions: seq<SpreadPosition>)

  /** A card as it comes off the shuffled deck, with its orientation. */
  datatype Draw = Draw(card: TarotCard, isReversed: bool)

  /** A drawn card placed in a slot; `Null` when the spread has no slot at its index. */
  datatype DrawnCard = DrawnCard(card: TarotCard, position: Nullable<SpreadPosition>, isReversed: bool)

  /** The page state, plus the completions scheduled but not yet fired. */
  datatype ReadingState = ReadingState(
    phase: Phase,
    drawnCards: seq<DrawnCard>,
    revealedCount: int,
    selectedCardIndex: Nullable<int>,
    pendingCompletions: nat)

  /** The number of cards in the deck `drawRandomCards` shuffles. */
  const DeckSize := 34

  /**
   * How many cards `drawRandomCards(cardCount)` deals: `slice(0, cardCount)`
   * of the shuffled deck, which is `cardCount` cards for a spread of up to a
   * whole deck, the whole deck for a larger one, and counts from the end for
   * a negative count.
   */
  function Dealt(cardCount: int): (r: nat)
    ensures 0 <= cardCount <= DeckSize ==> r == cardCount
    ensures cardCount > DeckSize ==> r == DeckSize
    ensures r <= DeckSize
  {
    if cardCount < 0 then (if DeckSize + cardCount > 0 then DeckSize + cardCount else 0)
    else if cardCount <= DeckSize then cardCount
    else DeckSize
  }

  /** The state the page mounts with. */
  const Initial := ReadingState(Intro, [], 0, Null, 0)

  /**
   * `handleStartDrawing`, given the cards `drawRandomCards` dealt: card i is
   * placed in slot i of the spread with its orientation, and the phase becomes
   * drawing. Nothing else changes.
   */
  function HandleStartDrawing(spread: Spread, s: ReadingState, draws: seq<Draw>): (r: ReadingState)
    ensures r.phase == Drawing && |r.drawnCards| == |draws|
    ensures forall i :: 0 <= i < |draws| ==>
      r.drawnCards[i].card == draws[i].card && r.drawnCards[i].isReversed == draws[i].isReversed
    ensures forall i :: 0 <= i < |draws| && i < |spread.positions| ==>
      r.drawnCards[i].position == Value(spread.positions[i])
    ensures forall i :: |spread.positions| <= i < |draws| ==> r.drawnCards[i].position.Null?
    ensures r.revealedCount == s.revealedCount && r.selectedCardIndex == s.selectedCardIndex
    ensures r.pendingCompletions == s.pendingCompletions
  {
    var drawn := seq(|draws|, i requires 0 <= i < |draws| =>
      DrawnCard(
        draws[i].card,
        if i < |spread.positions| then Value(spread.positions[i]) else Null,
        draws[i].isReversed));
    s.(drawnCards := drawn, phase := Drawing)
  }

  /**
   * `handleRevealCard`: while fewer than `cardCount` cards are face up, one
   * more is turned, and the reveal that turns the last one schedules the move
   * to complete. Once all are face up the handler does nothing.
   */
  function HandleRevealCard(spread: Spread, s: ReadingState): (r: ReadingState)
    ensures s.revealedCount < spread.cardCount ==> r.revealedCount == s.revealedCount + 1
    ensures s.revealedCount >= spread.cardCount ==> r == s
    ensures r.pendingCompletions == s.pendingCompletions + 1 <==> s.revealedCount + 1 == spread.cardCount
    ensures r.pendingCompletions != s.pendingCompletions + 1 ==> r.pendingCompletions == s.pendingCompletions
    ensures r.phase == s.phase && r.drawnCards == s.drawnCards && r.selectedCardIndex == s.selectedCardIndex
  {
    if s.revealedCount < spread.cardCount then
      var scheduled := if s.revealedCount + 1 >= spread.cardCount then 1 else 0;
      s.(revealedCount := s.revealedCount + 1, pendingCompletions := s.pendingCompletions + scheduled)
    else s
  }

  /** A scheduled completion fires: `setPhase('complete')`. Without one, nothing happens. */
  function HandleTimerFired(s: ReadingState): (r: ReadingState)
    ensures s.pendingCompletions > 0 ==> r.phase == Complete && r.pendingCompletions == s.pendingCompletions - 1
    ensures s.pendingCompletions == 0 ==> r == s
    ensures r.drawnCards == s.drawnCards && r.revealedCount == s.revealedCount
    ensures r.selectedCardIndex == s.selectedCardIndex
  {
    if s.pendingCompletions > 0 then s.(phase := Complete, pendingCompletions := s.pendingCompletions - 1)
    else s
  }

  /**
   * `handleReset` as written: back to the intro with no cards, count 0 and no
   * selection, but a completion already scheduled stays scheduled.
   */
  function HandleResetAsWritten(s: ReadingState): (r: ReadingState)
    ensures r.phase == Intro && r.drawnCards == [] && r.revealedCount == 0 && r.selectedCardIndex.Null?
    ensures r.pendingCompletions == s.pendingCompletions
  {
    ReadingState(Intro, [], 0, Null, s.pendingCompletions)
  }

  /** `handleReset` with the pending completion cancelled: exactly the state the page mounts with. */
  function HandleReset(s: ReadingState): (r: ReadingState)
    ensures r.phase == Intro && r.drawnCards == [] && r.revealedCount == 0 && r.selectedCardIndex.Null?
    ensures r.pendingCompletions == 0 && r == Initial
  {
    ReadingState(Intro, [], 0, Null, 0)
  }

  /**
   * `handleCardClick(index)`: only in the complete phase, clicking the selected
   * card clears the selection and clicking any other card selects it.
   */
  function HandleCardClick(s: ReadingState, index: int): (r: ReadingState)
    ensures s.phase != Complete ==> r == s
    ensures s.phase == Complete && s.selectedCardIndex == Value(index) ==> r.selectedCardIndex.Null?
    ensures s.phase == Complete && s.selectedCardIndex != Value(index) ==> r.selectedCardIndex == Value(index)
    ensures r.phase == s.phase && r.drawnCards == s.drawnCards && r.revealedCount == s.revealedCount
    ensures r.pendingCompletions == s.pendingCompletions
  {
    if s.phase == Complete then
      s.(selectedCardIndex := if s.selectedCardIndex == Value(index) then Null else Value(index))
    else s
  }

  /** Clicking the same card twice in the complete phase undoes the first click, unless another card was selected. */
  lemma CardClickToggles(s: ReadingState, index: int)
    requires s.selectedCardIndex.Null? || s.selectedCardIndex == Value(index)
    ensures HandleCardClick(HandleCardClick(s, index), index) == s
  {
  }

  /** What the user can do on the page, plus the timer firing. */
  datatype Event =
    | StartDrawing(draws: seq<Draw>)
    | RevealCard
    | TimerFired
    | Reset
    | CardClick(index: int)

  /**
   * Whether the page offers the event: the start button only in the intro
   * (and the deal it triggers has `Dealt(cardCount)` cards), the reveal
   * button only while drawing with cards still face down, the reset button
   * outside the intro, the cards only while drawing or complete. A scheduled
   * timer can fire at any time. So an offered reveal always turns a card, and
   * an offered reset always changes the page.
   */
  function Offered(spread: Spread, s: ReadingState, e: Event): (r: bool)
    ensures r && e.RevealCard? ==> HandleRevealCard(spread, s).revealedCount == s.revealedCount + 1
    ensures r && e.Reset? ==> HandleReset(s) != s && HandleResetAsWritten(s) != s
  {
    match e
    case StartDrawing(draws) => s.phase == Intro && |draws| == Dealt(spread.cardCount)
    case RevealCard => s.phase == Drawing && s.revealedCount < spread.cardCount
    case TimerFired => true
    case Reset => s.phase != Intro
    case CardClick(_) => s.phase == Drawing || s.phase == Complete
  }

  /** One transition of the page, with the corrected reset. */
  function Step(spread: Spread, s: ReadingState, e: Event): (r: ReadingState)
    ensures s.phase != Revealing ==> r.phase != Revealing
  {
    match e
    case StartDrawing(draws) => HandleStartDrawing(spread, s, draws)
    case RevealCard => HandleRevealCard(spread, s)
    case TimerFired => HandleTimerFired(s)
    case Reset => HandleReset(s)
    case CardClick(index) => HandleCardClick(s, index)
  }

  /** One transition of the page as written. */
  function StepAsWritten(spread: Spread, s: ReadingState, e: Event): (r: ReadingState)
    ensures s.phase != Revealing ==> r.phase != Revealing
  {
    match e
    case StartDrawing(draws) => HandleStartDrawing(spread, s, draws)
    case RevealCard => HandleRevealCard(spread, s)
    case TimerFired => HandleTimerFired(s)
    case Reset => HandleResetAsWritten(s)
    case CardClick(index) => HandleCardClick(s, index)
  }

  /**
   * The state after a sequence of events, with the corrected reset; an event
   * the page does not offer in the current state has no effect.
   */
  function Run(spread: Spread, s: ReadingState, events: seq<Event>): (r: ReadingState)
    ensures s.phase != Revealing ==> r.phase != Revealing
    decreases |events|
  {
    if |events| == 0 then s
    else
      var next := if Offered(spread, s, events[0]) then Step(spread, s, events[0]) else s;
      Run(spread, next, events[1..])
  }

  /** The state after a sequence of events, as written; the revealing phase is not entered here either. */
  function RunAsWritten(spread: Spread, s: ReadingState, events: seq<Event>): (r: ReadingState)
    ensures s.phase != Revealing ==> r.phase != Revealing
    decreases |events|
  {
    if |events| == 0 then s
    else
      var next := if Offered(spread, s, events[0]) then StepAsWritten(spread, s, events[0]) else s;
      RunAsWritten(spread, next, events[1..])
  }

  /**
   * What every reachable state satisfies: the revealing phase is never
   * entered; no more cards are face up than the spread asks for; outside the
   * intro the drawn cards are the deal; the intro shows nothing and waits on
   * no timer; a card is selected only in the
   * complete phase; a completion is pending only while
   * drawing with every card face up, and at most one at a time; and the
   * complete phase is reached only with every card face up.
   */
  predicate Inv(spread: Spread, s: ReadingState) {
    && s.phase != Revealing
    && 0 <= s.revealedCount
    && (spread.cardCount >= 0 ==> s.revealedCount <= spread.cardCount)
    && (s.phase != Intro ==> |s.drawnCards| == Dealt(spread.cardCount))
    && (s.phase == Intro ==>
          s.drawnCards == [] && s.revealedCount == 0 && s.selectedCardIndex.Null? && s.pendingCompletions == 0)
    && (s.selectedCardIndex.Value? ==> s.phase == Complete)
    && s.pendingCompletions <= 1
    && (s.pendingCompletions == 1 ==> s.phase == Drawing && s.revealedCount == spread.cardCount)
    && (s.phase == Complete ==> s.revealedCount == spread.cardCount)
  }

  lemma InitialInv(spread: Spread)
    ensures Inv(spread, Initial)
  {
  }

  /** Every event the page offers keeps the invariant. */
  lemma StepInv(spread: Spread, s: ReadingState, e: Event)
    requires Inv(spread, s) && Offered(spread, s, e)
    ensures Inv(spread, Step(spread, s, e))
  {
  }

  /** Every state reachable from the initial one satisfies the invariant. */
  lemma {:induction false} RunInv(spread: Spread, s: ReadingState, events: seq<Event>)
    requires Inv(spread, s)
    ensures Inv(spread, Run(spread, s, events))
    decreases |events|
  {
    if |events| > 0 {
      var next := if Offered(spread, s, events[0]) then Step(spread, s, events[0]) else s;
      if Offered(spread, s, events[0]) {
        StepInv(spread, s, events[0]);
      }
      RunInv(spread, next, events[1..]);
    }
  }

  /** From the initial state, with the corrected reset, the revealing phase is never entered. */
  lemma RevealingNeverEntered(spread: Spread, events: seq<Event>)
    ensures Run(spread, Initial, events).phase != Revealing
    ensures spread.cardCount >= 0 ==> Run(spread, Initial, events).revealedCount <= spread.cardCount
  {
    RunInv(spread, Initial, events);
  }

  /**
   * The part of the invariant the page keeps even with the reset as written:
   * no revealing phase and a face-up count between 0 and the card count.
   */
  predicate Bounded(spread: Spread, s: ReadingState) {
    && s.phase != Revealing
    && 0 <= s.revealedCount
    && (spread.cardCount >= 0 ==> s.revealedCount <= spread.cardCount)
  }

  /** Every sequence of offered events, with the reset as written, keeps the page bounded. */
  lemma {:induction false} RunAsWrittenBounded(spread: Spread, s: ReadingState, events: seq<Event>)
    requires Bounded(spread, s)
    ensures Bounded(spread, RunAsWritten(spread, s, events))
    decreases |events|
  {
    if |events| > 0 {
      var next := if Offered(spread, s, events[0]) then StepAsWritten(spread, s, events[0]) else s;
      assert Bounded(spread, next);
      RunAsWrittenBounded(spread, next, events[1..]);
    }
  }

  /**
   * From the initial state, with the reset as written, the revealing phase is
   * never entered and no more cards are face up than the spread asks for.
   */
  lemma RevealingNeverEnteredAsWritten(spread: Spread, events: seq<Event>)
    ensures RunAsWritten(spread, Initial, events).phase != Revealing
    ensures spread.cardCount >= 0 ==> RunAsWritten(spread, Initial, events).revealedCount <= spread.cardCount
  {
    RunAsWrittenBounded(spread, Initial, events);
  }

  /** A one-card spread used to exhibit the reset race. */
  const OneCard := Spread("single", "single", 1, [SpreadPosition(1, "core")])

  /** The events of the race: draw, turn the only card, reset before the 800 ms pass, timer fires. */
  const ResetRace: seq<Event> := [StartDrawing([Draw(TarotCard(0, "The Fool"), false)]), RevealCard, Reset, TimerFired]

  /**
   * As written, the race ends in the complete phase with no cards drawn and
   * none face up: the reset is undone by the stale timer.
   */
  lemma ResetRaceAsWritten()
    ensures RunAsWritten(OneCard, Initial, ResetRace).phase == Complete
    ensures RunAsWritten(OneCard, Initial, ResetRace).drawnCards == []
    ensures RunAsWritten(OneCard, Initial, ResetRace).revealedCount == 0
    ensures !Inv(OneCard, RunAsWritten(OneCard, Initial, ResetRace))
  {
    var s1 := StepAsWritten(OneCard, Initial, ResetRace[0]);
    var s2 := StepAsWritten(OneCard, s1, ResetRace[1]);
    var s3 := StepAsWritten(OneCard, s2, ResetRace[2]);
    var s4 := StepAsWritten(OneCard, s3, ResetRace[3]);
    assert s2.pendingCompletions == 1;
    assert s4.phase == Complete;
    assert RunAsWritten(OneCard, s4, ResetRace[4..]) == s4;
    assert RunAsWritten(OneCard, s3, ResetRace[3..]) == s4;
    assert RunAsWritten(OneCard, s2, ResetRace[2..]) == s4;
    assert RunAsWritten(OneCard, s1, ResetRace[1..]) == s4;
  }

  /** With the timer cancelled on reset, the same events leave the page at the intro. */
  lemma ResetRaceCorrected()
    ensures Run(OneCard, Initial, ResetRace) == Initial
  {
    var s1 := Step(OneCard, Initial, ResetRace[0]);
    var s2 := Step(OneCard, s1, ResetRace[1]);
    var s3 := Step(OneCard, s2, ResetRace[2]);
    var s4 := Step(OneCard, s3, ResetRace[3]);
    assert s4 == Initial;
    assert Run(OneCard, s4, ResetRace[4..]) == s4;
    assert Run(OneCard, s3, ResetRace[3..]) == s4;
    assert Run(OneCard, s2, ResetRace[2..]) == s4;
    assert Run(OneCard, s1, ResetRace[1..]) == s4;
  }

  /** Reveal after reveal, the cards of a spread are turned in at most `cardCount` steps, then the page completes. */
  lemma {:induction false} RevealAllThenComplete(spread: Spread, s: ReadingState, k: nat)
    requires Inv(spread, s) && s.phase == Drawing && s.pendingCompletions == 0
    requires k >= 1 && s.revealedCount + k == spread.cardCount
    ensures Run(spread, s, seq(k, _ => RevealCard) + [TimerFired]).phase == Complete
    decreases k
  {
    var events := seq(k, _ => RevealCard) + [TimerFired];
    if k == 1 {
      var s1 := Step(spread, s, RevealCard);
      assert s1.pendingCompletions == 1;
      assert events[1..] == [TimerFired];
      assert Run(spread, s1, events[1..]) == HandleTimerFired(s1);
    } else {
      var s1 := Step(spread, s, RevealCard);
      assert s1.pendingCompletions == 0 && s1.revealedCount + (k - 1) == spread.cardCount;
      assert events[1..] == seq(k - 1, _ => RevealCard) + [TimerFired];
      RevealAllThenComplete(spread, s1, k - 1);
    }
  }
}

=== FILE: retention.dfy ===
/**
 * The retention curve of the configuration panel: the row clean-up that
 * `handleSave` and `handleImportFile` apply before sorting by day, the
 * stable sort itself, and the single-row edit `updateRetention`.
 */
module Retention {
  import opened Numbers

  /** One point of the retention curve: a day number and the percentage still active. */
  datatype RetentionData = RetentionData(day: Num, rate: Num)

  /** Every row has a finite day, so the comparator `a.day - b.day` is a number. */
  predicate FiniteDays(rows: seq<RetentionData>) {
    forall i :: 0 <= i < |rows| ==> rows[i].day.Fin?
  }

  /** Days never decrease along the list. */
  predicate SortedByDay(rows: seq<RetentionData>)
    requires FiniteDays(rows)
  {
    forall i, j :: 0 <= i < j < |rows| ==> rows[i].day.v <= rows[j].day.v
  }

  /** The rows on day `d`, in list order. */
  function OnDay(rows: seq<RetentionData>, d: real): (r: seq<RetentionData>)
    requires FiniteDays(rows)
    ensures |r| <= |rows|
    ensures forall i :: 0 <= i < |r| ==> r[i] in rows && r[i].day == Fin(d)
  {
    if |rows| == 0 then []
    else (if rows[0].day.v == d then [rows[0]] else []) + OnDay(rows[1..], d)
  }

  /**
   * One step of the stable sort: `x` goes after every leading row whose day
   * is not larger than its own, and before the first row with a larger day.
   */
  function Insert(x: RetentionData, s: seq<RetentionData>): (r: seq<RetentionData>)
    requires x.day.Fin? && FiniteDays(s)
    ensures |r| == |s| + 1 && FiniteDays(r)
  {
    if |s| == 0 then [x]
    else if s[0].day.v <= x.day.v then [s[0]] + Insert(x, s[1..])
    else [x] + s
  }

  /**
   * `rows.sort((a, b) => a.day - b.day)`. `Array.prototype.sort` is stable,
   * which the insertion sort below also is: each row is inserted behind the
   * rows before it that share its day.
   */
  function SortByDay(rows: seq<RetentionData>): (r: seq<RetentionData>)
    requires FiniteDays(rows)
    ensures |r| == |rows| && FiniteDays(r)
  {
    if |rows| == 0 then []
    else Insert(rows[|rows| - 1], SortByDay(rows[..|rows| - 1]))
  }

  lemma {:induction false} InsertPermutation(x: RetentionData, s: seq<RetentionData>)
    requires x.day.Fin? && FiniteDays(s)
    ensures multiset(Insert(x, s)) == multiset(s) + multiset{x}
  {
    if |s| > 0 && s[0].day.v <= x.day.v {
      InsertPermutation(x, s[1..]);
      assert s == [s[0]] + s[1..];
    }
  }

  lemma {:induction false} InsertSorted(x: RetentionData, s: seq<RetentionData>)
    requires x.day.Fin? && FiniteDays(s) && SortedByDay(s)
    ensures SortedByDay(Insert(x, s))
  {
    if |s| > 0 && s[0].day.v <= x.day.v {
      InsertSorted(x, s[1..]);
      InsertPermutation(x, s[1..]);
      var r := Insert(x, s);
      forall j | 1 <= j < |r|
        ensures s[0].day.v <= r[j].day.v
      {
        assert r[j] in multiset(Insert(x, s[1..]));
      }
    }
  }

  /** The sort's result is ordered by day. */
  lemma {:induction false} SortSorted(rows: seq<RetentionData>)
    requires FiniteDays(rows)
    ensures SortedByDay(SortByDay(rows))
  {
    if |rows| > 0 {
      SortSorted(rows[..|rows| - 1]);
      InsertSorted(rows[|rows| - 1], SortByDay(rows[..|rows| - 1]));
    }
  }

  /** The sort's result holds exactly the input rows, with multiplicity. */
  lemma {:induction false} SortPermutation(rows: seq<RetentionData>)
    requires FiniteDays(rows)
    ensures multiset(SortByDay(rows)) == multiset(rows)
  {
    if |rows| > 0 {
      var init := rows[..|rows| - 1];
      SortPermutation(init);
      InsertPermutation(rows[|rows| - 1], SortByDay(init));
      assert rows == init + [rows[|rows| - 1]];
    }
  }

  lemma {:induction false} OnDayAppend(a: seq<RetentionData>, b: seq<RetentionData>, d: real)
    requires FiniteDays(a) && FiniteDays(b)
    ensures FiniteDays(a + b)
    ensures OnDay(a + b, d) == OnDay(a, d) + OnDay(b, d)
  {
    if |a| == 0 {
      assert a + b == b;
    } else {
      OnDayAppend(a[1..], b, d);
      assert (a + b)[0] == a[0];
      assert (a + b)[1..] == a[1..] + b;
    }
  }

  lemma {:induction false} OnDayAllLater(s: seq<RetentionData>, d: real)
    requires FiniteDays(s) && SortedByDay(s)
    requires |s| > 0 && s[0].day.v > d
    ensures OnDay(s, d) == []
  {
    if |s| > 1 {
      OnDayAllLater(s[1..], d);
    }
  }

  lemma {:induction false} InsertOnDay(x: RetentionData, s: seq<RetentionData>, d: real)
    requires x.day.Fin? && FiniteDays(s) && SortedByDay(s)
    ensures OnDay(Insert(x, s), d) == OnDay(s, d) + (if x.day.v == d then [x] else [])
  {
    if |s| == 0 {
    } else if s[0].day.v <= x.day.v {
      InsertOnDay(x, s[1..], d);
      assert Insert(x, s)[1..] == Insert(x, s[1..]);
    } else {
      assert Insert(x, s)[1..] == s;
      if x.day.v == d {
        OnDayAllLater(s, d);
      }
    }
  }

  /** Stability: the rows that share a day keep their relative order. */
  lemma {:induction false} SortStable(rows: seq<RetentionData>, d: real)
    requires FiniteDays(rows)
    ensures OnDay(SortByDay(rows), d) == OnDay(rows, d)
  {
    if |rows| > 0 {
      var init := rows[..|rows| - 1];
      var last := rows[|rows| - 1];
      SortStable(init, d);
      SortSorted(init);
      InsertOnDay(last, SortByDay(init), d);
      assert rows == init + [last];
      OnDayAppend(init, [last], d);
    }
  }

  lemma {:induction false} InsertAtEnd(x: RetentionData, s: seq<RetentionData>)
    requires x.day.Fin? && FiniteDays(s)
    requires forall i :: 0 <= i < |s| ==> s[i].day.v <= x.day.v
    ensures Insert(x, s) == s + [x]
  {
    if |s| > 0 {
      InsertAtEnd(x, s[1..]);
      assert s == [s[0]] + s[1..];
    }
  }

  /** Sorting rows that are already in day order leaves them as they are. */
  lemma {:induction false} SortKeepsSorted(rows: seq<RetentionData>)
    requires FiniteDays(rows) && SortedByDay(rows)
    ensures SortByDay(rows) == rows
  {
    if |rows| > 0 {
      var init := rows[..|rows| - 1];
      SortKeepsSorted(init);
      InsertAtEnd(rows[|rows| - 1], init);
      assert rows == init + [rows[|rows| - 1]];
    }
  }

  /** A rate as stored after clean-up: finite, non-negative, on the tenths grid. */
  predicate CleanRate(x: Num) {
    x.Fin? && x.v >= 0.0 && Whole(x.v * 10.0)
  }

  /** A day as stored after import: finite, non-negative and whole. */
  predicate CleanDay(x: Num) {
    x.Fin? && x.v >= 0.0 && Whole(x.v)
  }

  /** `roundTo(sanitizeNumber(rate), 1)`: the stored form of a rate. */
  function CleanedRate(x: Num): (r: Num)
    ensures CleanRate(r)
    ensures x.Fin? && x.v >= 0.0 ==> x.v - 0.05 < r.v <= x.v + 0.05
    ensures CleanRate(x) ==> r == x
  {
    RoundToNonNegative(Sanitized(x), 1);
    RoundToOnGridPoint(Sanitized(x), 1);
    assert CleanRate(x) ==> RoundTo(x.v, 1) == x.v by {
      if CleanRate(x) {
        RoundToOnGrid(x.v, 1);
      }
    }
    Fin(RoundTo(Sanitized(x), 1))
  }

  /** `roundTo(sanitizeNumber(day), 0)`: the stored form of an imported day. */
  function CleanedDay(x: Num): (r: Num)
    ensures CleanDay(r)
    ensures x.Fin? && x.v >= 0.0 ==> x.v - 0.5 < r.v <= x.v + 0.5
    ensures CleanDay(x) ==> r == x
  {
    RoundToNonNegative(Sanitized(x), 0);
    RoundToZeroIsWhole(Sanitized(x));
    assert CleanDay(x) ==> RoundTo(x.v, 0) == x.v by {
      if CleanDay(x) {
        RoundToWhole(x.v);
      }
    }
    Fin(RoundTo(Sanitized(x), 0))
  }

  /** The save-time clean-up of every row: the rate is cleaned and the day kept. */
  function CleanRates(rows: seq<RetentionData>): (r: seq<RetentionData>)
    ensures |r| == |rows|
    ensures forall i :: 0 <= i < |rows| ==> r[i] == rows[i].(rate := CleanedRate(rows[i].rate))
    ensures forall i :: 0 <= i < |rows| ==> r[i].day == rows[i].day && CleanRate(r[i].rate)
    ensures (forall i :: 0 <= i < |rows| ==> CleanRate(rows[i].rate)) ==> r == rows
  {
    seq(|rows|, i requires 0 <= i < |rows| => rows[i].(rate := CleanedRate(rows[i].rate)))
  }

  /** The import-time clean-up of every row: both the day and the rate are cleaned. */
  function CleanRows(rows: seq<RetentionData>): (r: seq<RetentionData>)
    ensures |r| == |rows|
    ensures forall i :: 0 <= i < |rows| ==> r[i] == RetentionData(CleanedDay(rows[i].day), CleanedRate(rows[i].rate))
    ensures forall i :: 0 <= i < |rows| ==> CleanDay(r[i].day) && CleanRate(r[i].rate)
    ensures (forall i :: 0 <= i < |rows| ==> CleanDay(rows[i].day) && CleanRate(rows[i].rate)) ==> r == rows
  {
    seq(|rows|, i requires 0 <= i < |rows| => RetentionData(CleanedDay(rows[i].day), CleanedRate(rows[i].rate)))
  }

  /**
   * The retention list `handleSave` hands on: rates cleaned, then sorted by
   * day. Every stored rate is clean, the rows are in day order, they are a
   * rearrangement of the cleaned rows, and rows sharing a day keep their order.
   */
  function SaveRetention(rows: seq<RetentionData>): (r: seq<RetentionData>)
    requires FiniteDays(rows)
    ensures |r| == |rows| && FiniteDays(r) && SortedByDay(r)
    ensures multiset(r) == multiset(CleanRates(rows))
    ensures forall i :: 0 <= i < |r| ==> CleanRate(r[i].rate)
  {
    var cleaned := CleanRates(rows);
    SortSorted(cleaned);
    SortPermutation(cleaned);
    var r := SortByDay(cleaned);
    assert forall i :: 0 <= i < |r| ==> r[i] in multiset(cleaned);
    r
  }

  /**
   * The retention list `handleImportFile` keeps: days and rates cleaned, then
   * sorted by day. Any list of rows is accepted.
   */
  function ImportRetention(rows: seq<RetentionData>): (r: seq<RetentionData>)
    ensures |r| == |rows| && FiniteDays(r) && SortedByDay(r)
    ensures multiset(r) == multiset(CleanRows(rows))
    ensures forall i :: 0 <= i < |r| ==> CleanDay(r[i].day) && CleanRate(r[i].rate)
  {
    var cleaned := CleanRows(rows);
    SortSorted(cleaned);
    SortPermutation(cleaned);
    var r := SortByDay(cleaned);
    assert forall i :: 0 <= i < |r| ==> r[i] in multiset(cleaned);
    r
  }

  /** Rows sharing a day keep their imported order through the import. */
  lemma ImportStable(rows: seq<RetentionData>, d: real)
    ensures OnDay(ImportRetention(rows), d) == OnDay(CleanRows(rows), d)
  {
    SortStable(CleanRows(rows), d);
  }

  /** Rows sharing a day keep their order through the save. */
  lemma SaveStable(rows: seq<RetentionData>, d: real)
    requires FiniteDays(rows)
    ensures OnDay(SaveRetention(rows), d) == OnDay(CleanRates(rows), d)
  {
    SortStable(CleanRates(rows), d);
  }

  /** Saving a saved retention list changes nothing. */
  lemma SaveRetentionIdempotent(rows: seq<RetentionData>)
    requires FiniteDays(rows)
    ensures SaveRetention(SaveRetention(rows)) == SaveRetention(rows)
  {
    var saved := SaveRetention(rows);
    assert CleanRates(saved) == saved;
    SortKeepsSorted(saved);
  }

  /** Importing rows that an import produced yields them again. */
  lemma ImportRetentionIdempotent(rows: seq<RetentionData>)
    ensures ImportRetention(ImportRetention(rows)) == ImportRetention(rows)
  {
    var imported := ImportRetention(rows);
    assert CleanRows(imported) == imported;
    SortKeepsSorted(imported);
  }

  /**
   * `updateRetention(index, rate)`: row `index` gets the cleaned rate and keeps
   * its day; every other row is unchanged. The list is not re-sorted.
   */
  function UpdateRetention(rows: seq<RetentionData>, index: int, rate: Num): (r: seq<RetentionData>)
    requires 0 <= index < |rows|
    ensures |r| == |rows|
    ensures r[index].day == rows[index].day && CleanRate(r[index].rate)
    ensures rate.Fin? && rate.v >= 0.0 ==> rate.v - 0.05 < r[index].rate.v <= rate.v + 0.05
    ensures !rate.Fin? || rate.v <= 0.0 ==> r[index].rate == Fin(0.0)
    ensures CleanRate(rate) ==> r[index].rate == rate
    ensures forall j :: 0 <= j < |rows| && j != index ==> r[j] == rows[j]
  {
    rows[index := rows[index].(rate := CleanedRate(rate))]
  }
}

=== FILE: roi_projection.dfy ===
/**
 * The 180-day ROI projection of `generateROIPredictions`: one cohort of
 * `dailyBudget / cpi` users, bought once, decays along a piecewise retention
 * curve; each active user brings `arpu` a day, of which the studio keeps 70%
 * after the platform fee. The cost is the budget, charged once.
 */
module RoiProjection {
  import opened Numbers

  /** Input of the projection. `payingRate`, `arppu` and `targetROAS` are carried but unused. */
  datatype PredictionParams = PredictionParams(
    cpi: real,
    arpu: real,
    d1Retention: real,
    d7Retention: real,
    d30Retention: real,
    payingRate: real,
    arppu: real,
    dailyBudget: real,
    targetROAS: real)

  /** One day of the projection. */
  datatype ROIPrediction = ROIPrediction(day: int, revenue: real, cost: real, roi: real, breakeven: bool)

  /** Number of simulated days. */
  const Horizon: nat := 180

  /** Share of gross revenue kept by the store platform. */
  const PlatformFeeRate: real := 0.30

  /** The parameters the dashboard starts with. */
  const DefaultParams := PredictionParams(
    cpi := 1.8, arpu := 0.15, d1Retention := 42.0, d7Retention := 15.0, d30Retention := 6.5,
    payingRate := 3.5, arppu := 25.0, dailyBudget := 10000.0, targetROAS := 120.0)

  /** The projection divides by the acquisition cost per install. */
  predicate ValidParams(p: PredictionParams) {
    p.cpi > 0.0
  }

  /** Inputs under which revenue can only accumulate. */
  predicate NonNegativeInputs(p: PredictionParams) {
    && p.arpu >= 0.0
    && p.d1Retention >= 0.0
    && p.d7Retention >= 0.0
    && p.d30Retention >= 0.0
    && p.dailyBudget >= 0.0
  }

  /** Retention percentages that are genuine percentages. */
  predicate PercentAnchors(p: PredictionParams) {
    && 0.0 <= p.d1Retention <= 100.0
    && 0.0 <= p.d7Retention <= 100.0
    && 0.0 <= p.d30Retention <= 100.0
  }

  /**
   * Share of the cohort active on `day`: the D1 rate on day 1, then decaying
   * by 15% a day from the D1 anchor (days 2..7), by 8% a day from the D7 anchor
   * (days 8..30) and by 3% a day from the D30 anchor (from day 31). Each
   * regime stays below its own anchor, and genuine percentages give a share
   * between 0 and 1.
   */
  function RetentionRate(p: PredictionParams, day: int): (r: real)
    requires day >= 1
    ensures NonNegativeInputs(p) ==> r >= 0.0
    ensures p.d1Retention >= 0.0 && day <= 7 ==> r <= p.d1Retention / 100.0
    ensures p.d7Retention >= 0.0 && 8 <= day <= 30 ==> r <= p.d7Retention / 100.0
    ensures p.d30Retention >= 0.0 && day > 30 ==> r <= p.d30Retention / 100.0
    ensures PercentAnchors(p) ==> 0.0 <= r <= 1.0
  {
    if day == 1 then p.d1Retention / 100.0
    else if day <= 7 then Decayed(p.d1Retention / 100.0, 0.85, day - 1)
    else if day <= 30 then Decayed(p.d7Retention / 100.0, 0.92, day - 7)
    else Decayed(p.d30Retention / 100.0, 0.97, day - 30)
  }

  /** `anchor * base^n`, which for a base in [0, 1] stays between 0 and a non-negative anchor. */
  function Decayed(anchor: real, base: real, n: nat): (r: real)
    requires 0.0 <= base <= 1.0
    ensures anchor >= 0.0 ==> 0.0 <= r <= anchor
  {
    var f := Pow(base, n);
    assert anchor >= 0.0 ==> anchor * f <= anchor * 1.0 by {
      if anchor >= 0.0 { ScaleMonotone(f, 1.0, anchor); }
    }
    anchor * f
  }

  /** Size of the single cohort bought with the whole budget. */
  function CohortSize(p: PredictionParams): (r: real)
    requires ValidParams(p)
    ensures p.dailyBudget >= 0.0 ==> r >= 0.0
  {
    p.dailyBudget / p.cpi
  }

  /** Net revenue of `day`: active users times ARPU, less the platform fee. */
  function DailyRevenue(p: PredictionParams, day: int): (r: real)
    requires ValidParams(p) && day >= 1
    ensures NonNegativeInputs(p) ==> r >= 0.0
  {
    var users := CohortSize(p);
    var retention := RetentionRate(p, day);
    var activeUsers := users * retention;
    var gross := activeUsers * p.arpu;
    assert NonNegativeInputs(p) ==> activeUsers >= 0.0 && gross >= 0.0;
    gross * (1.0 - PlatformFeeRate)
  }

  /** Unrounded running total of net revenue over days 1..day, the loop's accumulator. */
  function CumulativeRevenue(p: PredictionParams, day: nat): (r: real)
    requires ValidParams(p)
    ensures day == 0 ==> r == 0.0
    ensures NonNegativeInputs(p) ==> r >= 0.0
  {
    Accumulate(p, day)
  }

  /**
   * The recursion behind `CumulativeRevenue`, which statements use so that a
   * quotient of the total is the same term wherever it is written. The total
   * never decreases from one day to the next when the inputs are non-negative.
   */
  function Accumulate(p: PredictionParams, day: nat): (r: real)
    requires ValidParams(p)
    ensures NonNegativeInputs(p) ==> r >= 0.0
    ensures NonNegativeInputs(p) && day >= 1 ==> r >= Accumulate(p, day - 1)
  {
    if day == 0 then 0.0 else Accumulate(p, day - 1) + DailyRevenue(p, day)
  }

  /**
   * The ROI percentage before rounding: zero when there is no cost to
   * recover, and never negative when the inputs are not.
   */
  function RawRoi(p: PredictionParams, day: nat): (r: real)
    requires ValidParams(p)
    ensures p.dailyBudget <= 0.0 ==> r == 0.0
    ensures NonNegativeInputs(p) ==> r >= 0.0
  {
    if p.dailyBudget > 0.0 then
      assert NonNegativeInputs(p) ==> CumulativeRevenue(p, day) / p.dailyBudget * 100.0 >= 0.0 by {
        if NonNegativeInputs(p) {
          PercentMonotone(0.0, CumulativeRevenue(p, day), p.dailyBudget);
        }
      }
      CumulativeRevenue(p, day) / p.dailyBudget * 100.0
    else 0.0
  }

  /**
   * The record stored for `day`. Its cost is the budget whatever the day, and
   * it is breakeven exactly when there is a cost and the unrounded revenue
   * has reached it.
   */
  function Prediction(p: PredictionParams, day: nat): (r: ROIPrediction)
    requires ValidParams(p)
    ensures r.day == day && r.cost == p.dailyBudget
    ensures r.breakeven <==> p.dailyBudget > 0.0 && CumulativeRevenue(p, day) >= p.dailyBudget
  {
    var raw := RawRoi(p, day);
    BreakevenThreshold(CumulativeRevenue(p, day), p.dailyBudget);
    ROIPrediction(
      day := day,
      revenue := RoundTo(CumulativeRevenue(p, day), 2),
      cost := p.dailyBudget,
      roi := RoundTo(raw, 1),
      breakeven := raw >= 100.0)
  }

  /** With a positive cost, an ROI of at least 100% means the revenue covers the cost. */
  lemma BreakevenThreshold(revenue: real, cost: real)
    ensures cost > 0.0 ==> (revenue / cost * 100.0 >= 100.0 <==> revenue >= cost)
  {
    if cost > 0.0 {
      var q := revenue / cost;
      assert q * cost == revenue;
      if q >= 1.0 {
        ScaleMonotone(1.0, q, cost);
      } else {
        assert (1.0 - q) * cost > 0.0;
      }
    }
  }

  /** The loop's step-by-step products compute `DailyRevenue`. */
  lemma DailyRevenueSteps(p: PredictionParams, day: int, users: real, retention: real)
    requires ValidParams(p) && day >= 1
    requires users == p.dailyBudget / p.cpi && retention == RetentionRate(p, day)
    ensures users * retention * p.arpu * (1.0 - PlatformFeeRate) == DailyRevenue(p, day)
  {
  }

  /** The projection as a sequence: entry i describes day i + 1 of the horizon. */
  function Projection(p: PredictionParams): (r: seq<ROIPrediction>)
    requires ValidParams(p)
    ensures |r| == Horizon
    ensures forall i :: 0 <= i < |r| ==> r[i] == Prediction(p, i + 1)
  {
    seq(Horizon, i requires 0 <= i < Horizon => Prediction(p, i + 1))
  }

  /**
   * `generateROIPredictions`: the day loop with its running accumulator. It
   * yields 180 records, record i for day i + 1, each costing the budget,
   * storing the accumulated revenue to the cent and the ROI to a tenth.
   */
  method GenerateROIPredictions(p: PredictionParams) returns (predictions: seq<ROIPrediction>)
    requires ValidParams(p)
    ensures |predictions| == Horizon
    ensures forall i :: 0 <= i < |predictions| ==> predictions[i].day == i + 1
    ensures forall i :: 0 <= i < |predictions| ==> predictions[i].cost == p.dailyBudget
    ensures forall i :: 0 <= i < |predictions| ==>
      predictions[i].revenue == RoundTo(CumulativeRevenue(p, i + 1), 2)
    ensures forall i :: 0 <= i < |predictions| ==> predictions[i].roi == RoundTo(RawRoi(p, i + 1), 1)
    ensures predictions == Projection(p)
  {
    predictions := [];
    var cumulativeRevenue := 0.0;
    var dailyCost := p.dailyBudget;
    var usersPerDay := p.dailyBudget / p.cpi;
    var day := 1;
    while day <= Horizon
      invariant 1 <= day <= Horizon + 1
      invariant |predictions| == day - 1
      invariant cumulativeRevenue == CumulativeRevenue(p, day - 1)
      invariant forall i :: 0 <= i < |predictions| ==> predictions[i] == Prediction(p, i + 1)
    {
      var retentionRate := RetentionRate(p, day);
      var activeUsers := usersPerDay * retentionRate;
      var grossRevenue := activeUsers * p.arpu;
      var dailyRevenue := grossRevenue * (1.0 - PlatformFeeRate);
      cumulativeRevenue := cumulativeRevenue + dailyRevenue;
      DailyRevenueSteps(p, day, usersPerDay, retentionRate);
      assert cumulativeRevenue == CumulativeRevenue(p, day);
      var totalCost := dailyCost;
      var roi := if totalCost > 0.0 then (cumulativeRevenue / totalCost) * 100.0 else 0.0;
      assert roi == RawRoi(p, day);
      var record := ROIPrediction(
        day := day,
        revenue := RoundTo(cumulativeRevenue, 2),
        cost := totalCost,
        roi := RoundTo(roi, 1),
        breakeven := roi >= 100.0);
      assert record == Prediction(p, day);
      predictions := predictions + [record];
      day := day + 1;
    }
  }

  /** The accumulator never decreases over the days when the inputs are non-negative. */
  lemma {:induction false} CumulativeRevenueMonotone(p: PredictionParams, d: nat, e: nat)
    requires ValidParams(p) && NonNegativeInputs(p)
    requires d <= e
    ensures CumulativeRevenue(p, d) <= CumulativeRevenue(p, e)
  {
    if d < e {
      CumulativeRevenueMonotone(p, d, e - 1);
      assert Accumulate(p, e) >= Accumulate(p, e - 1);
    }
  }

  /** Stored (cent-rounded) revenue never decreases from one day to a later one. */
  lemma RevenueNonDecreasing(p: PredictionParams, d: nat, e: nat)
    requires ValidParams(p) && NonNegativeInputs(p)
    requires d <= e
    ensures Prediction(p, d).revenue <= Prediction(p, e).revenue
  {
    CumulativeRevenueMonotone(p, d, e);
    RoundToMonotone(CumulativeRevenue(p, d), CumulativeRevenue(p, e), 2);
  }

  /** Unrounded ROI grows with the accumulated revenue. */
  lemma RawRoiMonotone(p: PredictionParams, d: nat, e: nat)
    requires ValidParams(p) && NonNegativeInputs(p)
    requires d <= e
    ensures RawRoi(p, d) <= RawRoi(p, e)
  {
    if p.dailyBudget > 0.0 {
      CumulativeRevenueMonotone(p, d, e);
      PercentMonotone(CumulativeRevenue(p, d), CumulativeRevenue(p, e), p.dailyBudget);
    }
  }

  lemma PercentMonotone(a: real, b: real, c: real)
    requires a <= b && c > 0.0
    ensures a / c * 100.0 <= b / c * 100.0
  {
    DivideMonotone(a, b, c);
  }

  /** Stored (tenth-rounded) ROI never decreases from one day to a later one. */
  lemma RoiNonDecreasing(p: PredictionParams, d: nat, e: nat)
    requires ValidParams(p) && NonNegativeInputs(p)
    requires d <= e
    ensures Prediction(p, d).roi <= Prediction(p, e).roi
  {
    RawRoiMonotone(p, d, e);
    RoundToMonotone(RawRoi(p, d), RawRoi(p, e), 1);
  }

  /** Once a day is breakeven, every later day is too. */
  lemma BreakevenPersists(p: PredictionParams, d: nat, e: nat)
    requires ValidParams(p) && NonNegativeInputs(p)
    requires d <= e
    ensures Prediction(p, d).breakeven ==> Prediction(p, e).breakeven
  {
    CumulativeRevenueMonotone(p, d, e);
  }

  /**
   * With the default parameters the cohort has 10000 / 1.8 users, 42% of them
   * active on day 1, each bringing 0.15 gross: 245 net on a 10000 budget.
   */
  lemma DefaultDayOne()
    ensures ValidParams(DefaultParams)
    ensures Projection(DefaultParams)[0].day == 1
    ensures Projection(DefaultParams)[0].revenue == 245.0
    ensures Projection(DefaultParams)[0].cost == 10000.0
    ensures Projection(DefaultParams)[0].roi == 2.5
    ensures !Projection(DefaultParams)[0].breakeven
  {
    var p := DefaultParams;
    assert RetentionRate(p, 1) == 0.42;
    assert DailyRevenue(p, 1) == 245.0;
    assert CumulativeRevenue(p, 1) == 245.0;
    RoundUnique(24500.0, 24500);
    assert RoundTo(245.0, 2) == 245.0;
    assert RawRoi(p, 1) == 2.45;
    RoundUnique(24.5, 25);
    assert RoundTo(2.45, 1) == 2.5;
  }

  /**
   * The breakeven flag is taken from the unrounded ROI, so a day can store an
   * ROI of 100.0 and still not be breakeven: one user per unit of budget, all
   * active on day 1, earning 99.96 net on a budget of 100.
   */
  lemma RoundedRoiCanReadHundredBeforeBreakeven()
    ensures var p := PredictionParams(
              cpi := 1.0, arpu := 1.428, d1Retention := 100.0, d7Retention := 0.0, d30Retention := 0.0,
              payingRate := 0.0, arppu := 0.0, dailyBudget := 100.0, targetROAS := 0.0);
            Projection(p)[0].roi == 100.0 && !Projection(p)[0].breakeven
  {
    var p := PredictionParams(
      cpi := 1.0, arpu := 1.428, d1Retention := 100.0, d7Retention := 0.0, d30Retention := 0.0,
      payingRate := 0.0, arppu := 0.0, dailyBudget := 100.0, targetROAS := 0.0);
    assert CumulativeRevenue(p, 1) == 99.96;
    assert RawRoi(p, 1) == 99.96;
    RoundUnique(999.6, 1000);
    assert RoundTo(99.96, 1) == 100.0;
  }
}
